=== FILE: README.md ===
# Classical ciphers in Dafny: Playfair, Hill and shift ciphers

This project models the cipher kernels of a small collection of Python scripts:

- **`PlayFair.py`** is a 5 x 6 Playfair cipher over `A`-`Z` and `0`-`9`.
  - `generate_matrix` builds the grid from a key.
  - `encrypt_playfair` normalises the plaintext, cuts it into digraphs with an `X` filler and applies the Playfair rule.
  - `decrypt_playfair` pads an odd ciphertext with `X`, applies the inverse rule, deletes every `X` and strips trailing whitespace.
- **`PlayFairImage.py`** is the classical 5 x 5 letter Playfair cipher, with `J` merged into `I`: `create_playfair_matrix`, `playfair_encrypt` and `playfair_decrypt`.
- **`HillCipher.py`** is a Hill block cipher modulo 256 on a grey-scale image.
  - `prepare_key` crops the key image to its top-left square.
  - `matrix_mod_inv` inverts that square modulo 256.
  - `hill_cipher_image` cuts the image into key-sized blocks, zero-pads the edge blocks, multiplies by the key modulo 256 and crops back.
- **`Cypher.py`** has two shift ciphers.
  - `ShiftCypher.encrypt/decrypt` shift character codes modulo 128.
  - `ShiftCypherInts.process_pixel/encrypt/decrypt` replace a pixel by three copies of its shifted red level modulo 256.

Everything is pure functions on immutable values:
- strings are `seq<char>`;
- grids are `seq<seq<char>>` or `seq<seq<int>>`;
- Python exceptions become a `Result` (`results.dfy`) whose error names the exception class: `ValueError`, `KeyError` or `IndexError`.

Modules:
- `Seqs` (`seqs.dfy`) covers repeat-free lists and the single "keep first occurrence" pass both grid builders use.
- `Text` (`text.dfy`) covers `str.upper` on ASCII, `str.replace` of one character and `str.rstrip`.
- `PlayfairGrid` (`playfair_grid.dfy`) is shared by both Playfair scripts:
  - reshaping a list into a grid;
  - symbol lookup, as the first match (`np.where`) or the last match (a dict built row by row);
  - the substitution rule with wrap-around;
  - digraph segmentation and ciphertext chunking.
- `PlayFair` and `PlayFairImage` are the two scripts.
- `ModArith` has the congruence facts and `pow(a, -1, m)`.
- `IntMatrix` has the dot product, `np.dot`, and the exact determinant and adjugate.
- `HillCipher` and `Cypher` are the other two scripts.

Python's `%` with a positive divisor returns a value in `[0, divisor)`, the same as Dafny's `%`. Every `% 5`, `% 6`, `% 128` and `% 256` therefore appears unchanged. That includes `(i - 1) % n` at index 0, which wraps to `n - 1`.

## Model

| member | source | states |
|---|---|---|
| Seqs.IndexOf | PlayFair.py:5 | `key.index(c)`: the position of the first occurrence of `c`, defined only when `c` occurs (Python raises ValueError otherwise) |
| Seqs.KeepFirst | PlayFair.py:10-18 | one pass with a shared `used` set yields a list without repeats that holds exactly the input symbols passing the filter |
| Seqs.KeepFirstOrder | PlayFair.py:10-13 | the kept symbols come in order of their first occurrence in the input |
| Seqs.KeepFirstAppend | PlayFair.py:10-18 | a pass over key then alphabet gives the key's kept symbols, then the alphabet symbols the key did not use, in alphabet order |
| Seqs.KeepFirstSame | PlayFair.py:11 | filters that agree on every input symbol keep the same list |
| Text.UpperChar | PlayFair.py:32 | `a`-`z` move down 32 code points to `A`-`Z`, every other character is kept, and the result is never a lower-case ASCII letter |
| Text.Upper | PlayFair.py:32 | `str.upper` keeps the length and maps every character by `Text.UpperChar` |
| Text.ReplaceChar | PlayFair.py:32 | same length; each occurrence of `a` becomes `b` and nothing else changes; afterwards `a` no longer occurs |
| Text.Remove | PlayFair.py:97 | the deleted symbol no longer occurs, every other symbol occurs exactly as often as before, the text never grows, and a text without the symbol is unchanged |
| Text.RemoveAppend | PlayFair.py:97 | deleting a symbol distributes over concatenation |
| Text.RemovePrefix | PlayFair.py:97 | texts equal once `X` is deleted stay equal after a common prefix, and a leading `X` leaves no trace |
| Text.RStrip | PlayFair.py:97 | the result is a prefix whose last character is not whitespace, and everything stripped is whitespace |
| Text.RStripNoSpace | PlayFair.py:97 | a text without whitespace is left unchanged by `rstrip` |
| PlayfairGrid.Reshape | PlayFair.py:20-22 | `rows` rows of `cols` symbols whose row-major reading is the first `rows * cols` symbols of the list |
| PlayfairGrid.ReshapeDistinct | PlayFair.py:20-22 | a grid cut from a list without repeats holds no symbol twice |
| PlayfairGrid.ReshapeSymbols | PlayFair.py:20-22 | a symbol is in the grid exactly when it is among the first `rows * cols` list symbols |
| PlayfairGrid.FindFirst | PlayFairImage.py:76-78 | the first cell in row-major order that holds the symbol, and nothing exactly when the symbol is absent (`row[0]` raises) |
| PlayfairGrid.FindLast | PlayFair.py:28-30 | the last cell in row-major order that holds the symbol, which the dict keeps; nothing exactly when the symbol is absent (KeyError) |
| PlayfairGrid.FindDistinct | PlayFair.py:28-30 | in a grid without repeats both lookups give the unique cell holding the symbol |
| PlayfairGrid.Step | PlayFair.py:57-61 | the `% 6` / `% 5` step always lands inside `[0, n)`; `StepWraps` pins its value |
| PlayfairGrid.StepWraps | PlayFair.py:57-61 | `+1` wraps from the last index to 0, and `-1` wraps from 0 to the last index |
| PlayfairGrid.StepInverse | PlayFair.py:88-92 | the decryption step `-1 mod n` undoes the encryption step `+1 mod n` and vice versa |
| PlayfairGrid.StepInjective | PlayFair.py:57-58 | stepping never maps two different indices to the same index |
| PlayfairGrid.Rule | PlayFair.py:56-64 | the substitution rule on positions: same row, same column or rectangle. The same rule, stepping back, is PlayFair.py:87-95, and with `% 5` both ways it is PlayFairImage.py:84-92 and 108-116. Its own contract only keeps the positions inside the grid; `RuleInverse` and `PairRoundTrip` pin it down |
| PlayfairGrid.RuleInverse | PlayFair.py:56-64 | each of the row, column and rectangle cases, run backwards, gives the original pair of positions back; this includes the equal pair of a doubled `X` |
| PlayfairGrid.TransformPair | PlayFair.py:52-64 | a digraph is transformed exactly when both symbols are in the grid, and its image lies in the grid |
| PlayfairGrid.PairRoundTrip | PlayFair.py:83-95 | in a grid without repeats, decrypting an encrypted digraph gives it back, and so does the reverse order |
| PlayfairGrid.TransformAll | PlayFair.py:52-64 | the list is transformed exactly when every digraph symbol is in the grid, keeping the number of digraphs |
| PlayfairGrid.AllRoundTrip | PlayFair.py:83-95 | transforming a digraph list one way and then the other gives it back |
| PlayfairGrid.Concat | PlayFair.py:66 | the joined text has two symbols per digraph: first at `2i`, second at `2i + 1` |
| PlayfairGrid.Segment | PlayFair.py:33-48 | between `|t| / 2` and `|t|` digraphs, each made of two different symbols or with the filler second (so a doubled pair can only be `XX`) |
| PlayfairGrid.SegmentPairs | PlayFair.py:36-45 | a text made of pairs of different symbols is cut into exactly those pairs, and the scan then carries on with the rest |
| PlayfairGrid.SegmentKeepsText | PlayFair.py:33-48 | segmentation only inserts fillers: with every `X` deleted, the joined digraphs equal the text |
| PlayfairGrid.SegmentSymbols | PlayFair.py:36-48 | every digraph symbol is a text symbol or the filler |
| PlayfairGrid.SegmentInGrid | PlayFair.py:41-47 | if the grid holds `X` and every text symbol, every digraph can be looked up |
| PlayfairGrid.PadPairs | PlayFair.py:73-79 | pairs of consecutive symbols, with `X` as the second symbol of an odd last pair |
| PlayfairGrid.ExactPairs | PlayFairImage.py:96-98 | pairs of consecutive symbols, and a failure exactly when the length is odd |
| PlayfairGrid.PadPairsInGrid | PlayFair.py:73-85 | every padded chunk can be looked up exactly when every ciphertext symbol can and, for an odd length, the `X` padding can too |
| PlayfairGrid.ExactPairsInGrid | PlayFairImage.py:96-107 | for an even length, every chunk can be looked up exactly when every ciphertext symbol can |
| PlayfairGrid.ChunkConcat | PlayFair.py:73-79 | chunking a joined digraph list gives the list back, with or without padding |
| PlayFair.AvailableLiteral | PlayFair.py:6 | the alphabet built from the runs `A`-`Z` and `0`-`9` is the script's literal string |
| PlayFair.AvailableSymbols | PlayFair.py:6 | every available symbol is an ASCII capital or digit, so it is never whitespace |
| PlayFair.SortedKey | PlayFair.py:5 | ValueError exactly when some upper-cased key symbol is missing from the key itself; otherwise the distinct upper-cased symbols, ordered by first index in the original key |
| PlayFair.Seed | PlayFair.py:6-18 | the 36-symbol seed has no repeats and holds exactly the available symbols |
| PlayFair.SeedOrder | PlayFair.py:10-18 | the seed is the key's available symbols in order, then the unused available symbols in canonical order |
| PlayFair.BuildGrid | PlayFair.py:7-24 | 5 rows of 6 distinct symbols, equal in row-major order to the first 30 seed symbols |
| PlayFair.GenerateMatrix | PlayFair.py:4-24 | ValueError exactly when the key sort fails; otherwise a 5 x 6 grid of distinct available symbols made of the first 30 seed symbols |
| PlayFair.GeneratedSymbols | PlayFair.py:20-22 | a symbol is in the generated grid exactly when it is among the first 30 seed symbols |
| PlayFair.LowerCaseKeyFails | PlayFair.py:5 | the key `"today"` raises ValueError |
| PlayFair.MixedCaseKeyBuilds | PlayFair.py:5 | a lower-case letter whose capital also occurs in the key does not fail: a key such as `"aA"` sorts to its capital alone and builds a grid |
| PlayFair.SortedKeyCorrected | PlayFair.py:5 | the distinct symbols of `key.upper()` in first-occurrence order, for every key |
| PlayFair.SortedKeyCorrectedAgrees | PlayFair.py:5 | on a key that is already upper case, the corrected sort agrees with the sort as written |
| PlayFair.GenerateMatrixCorrected | PlayFair.py:4-24 | with the corrected sort every key gives a 5 x 6 grid of distinct available symbols |
| PlayFair.Normalize | PlayFair.py:32 | the normalised plaintext is no longer than the input and holds no `J`, no space and no lower-case ASCII letter; every other symbol occurs in it exactly when it occurs in the upper-cased, `J` -> `I` text |
| PlayFair.EncryptPlayfair | PlayFair.py:27-66 | KeyError exactly when a digraph symbol of the normalised text is not in the grid; otherwise two grid symbols per digraph |
| PlayFair.DecryptPlayfair | PlayFair.py:68-97 | KeyError exactly when a ciphertext symbol, or the `X` padding an odd ciphertext, is missing; the output has no `X` and no trailing whitespace |
| PlayFair.RoundTrip | PlayFair.py:27-97 | on a 5 x 6 grid without repeats holding `X` and the text's symbols, decryption gives back the normalised text with every `X` deleted, right-stripped |
| PlayFair.AvailableRoundTrip | PlayFair.py:27-97 | on such a grid of available symbols the strip is a no-op: exactly the normalised text without `X` comes back |
| PlayFair.GeneratedRoundTrip | PlayFair.py:99-104 | the same round trip on a generated grid |
| PlayFair.CorrectedRoundTrip | PlayFair.py:4-97 | the same round trip on a grid built with the corrected key sort |
| PlayFair.DemoSegmentation | PlayFair.py:100-103 | `ATTACKTONIGHT` is cut into `AT TA CK TO NI GH TX` |
| PlayFair.RepeatedLetterExample | PlayFair.py:36-48 | an example of the segmentation loop, not taken from the script: `BALLOON` is cut into `BA LX LO ON` |
| PlayFairImage.LettersLiteral | PlayFairImage.py:53-57 | the letter run is `string.ascii_uppercase`, and the grid alphabet is it without `J` |
| PlayFairImage.MatrixLettersFacts | PlayFairImage.py:56-59 | the grid alphabet is the 25 letters other than `J`, without repeats |
| PlayFairImage.Prepare | PlayFairImage.py:49 | upper-casing and `J` -> `I` keep the length and leave no `J` |
| PlayFairImage.MatrixSeed | PlayFairImage.py:50-59 | 25 symbols without repeats, exactly the capitals other than `J` |
| PlayFairImage.MatrixSeedOrder | PlayFairImage.py:52-59 | the key's letters in first-occurrence order, then the remaining letters in alphabetical order |
| PlayFairImage.CreatePlayfairMatrix | PlayFairImage.py:48-60 | a 5 x 5 grid without repeats whose row-major reading is the seed |
| PlayFairImage.CreatedSymbols | PlayFairImage.py:48-60 | a symbol is in the created grid exactly when it is a capital other than `J` |
| PlayFairImage.PlayfairEncrypt | PlayFairImage.py:62-93 | IndexError exactly when a digraph symbol is not in the grid (a space or a digit, say); otherwise two grid symbols per digraph |
| PlayFairImage.PlayfairDecrypt | PlayFairImage.py:95-117 | IndexError exactly when the length is odd or an upper-cased symbol is not in the grid; the output has no `X` and is no longer than the input |
| PlayFairImage.RoundTrip | PlayFairImage.py:62-117 | on a 5 x 5 grid without repeats holding `X` and the prepared text's symbols, and kept fixed by `upper`, decryption gives back the prepared text without `X` |
| PlayFairImage.CreatedRoundTrip | PlayFairImage.py:48-117 | for a plaintext of ASCII letters and any key, decrypting the encryption under the created grid gives `p.upper()` with `J` -> `I` and every `X` deleted |
| ModArith.ModInv | HillCipher.py:13 | an inverse in `[0, m)` exactly when one exists, and nothing (ValueError) otherwise |
| ModArith.InverseUnique | HillCipher.py:13 | there is at most one inverse in `[0, m)` |
| ModArith.Invertible256 | HillCipher.py:13 | modulo 256 an inverse exists exactly for odd numbers |
| IntMatrix.MatMul | HillCipher.py:36 | `np.dot` shape: as many rows as the left factor, each as long as a right-factor row; each entry is a row times a column |
| IntMatrix.DotMod | HillCipher.py:36 | reducing the factors modulo `m` before a dot product does not change it modulo `m` |
| IntMatrix.DotLinear | HillCipher.py:36 | the dot product is linear in its first factor |
| IntMatrix.DotAssoc | HillCipher.py:36 | `u . (K x) == (u K) . x` |
| IntMatrix.Det | HillCipher.py:12 | the exact determinant by cofactor expansion, standing in for `np.linalg.det`. Its own contract only gives the 1 x 1 case; `Det2` pins the 2 x 2 case |
| IntMatrix.Adjugate | HillCipher.py:14 | the exact adjugate, standing in for `det * np.linalg.inv(matrix)`. Its own contract only gives the shape; `Adjugate2` pins the 2 x 2 case |
| IntMatrix.Det2 | HillCipher.py:12 | the exact 2 x 2 determinant is `ad - bc` |
| IntMatrix.Adjugate2 | HillCipher.py:14 | the exact 2 x 2 adjugate is `[[d, -b], [-c, a]]` |
| HillCipher.PrepareKey | HillCipher.py:41-45 | a square of size `min(h, w)` whose entries are the key image's top-left entries |
| HillCipher.MatrixModInv | HillCipher.py:11-15 | ValueError exactly when the determinant has no inverse modulo `modulus` (`pow`) or is 0 (LinAlgError from `np.linalg.inv`); otherwise a square of the same size whose entry `(i, j)` is the determinant's inverse times adjugate entry `(i, j)`, reduced into `[0, modulus)` |
| HillCipher.ScaleMod | HillCipher.py:14-15 | scaling and `np.mod` keep the shape; entry `(i, j)` is `d * b[i][j]` reduced into `[0, m)` |
| HillCipher.SingularRejected | HillCipher.py:13-14 | a singular key is always rejected with ValueError: by `pow` for every modulus above 1, and by `np.linalg.inv` modulo 1, where `pow(0, -1, 1)` succeeds |
| HillCipher.MatrixModInvParity | HillCipher.py:13 | modulo 256, inversion fails exactly for an even determinant |
| HillCipher.MatrixModInv2 | HillCipher.py:11-15 | for a 2 x 2 key the computed inverse is a two-sided inverse modulo `m` |
| HillCipher.BlockStart | HillCipher.py:28-29 | every index lies in exactly one block, which starts at a multiple of `n` at most `n - 1` before it |
| HillCipher.BlockInside | HillCipher.py:28-31 | when the height is a multiple of `n`, every block is full height |
| HillCipher.PadBlock | HillCipher.py:30-34 | the padded block is `n x n`; its entries are pinned down through `HillCell` |
| HillCipher.EncodeBlock | HillCipher.py:36 | the encoded block is `n x n` and every entry is reduced into `[0, 256)` |
| HillCipher.HillEntry | HillCipher.py:28-37 | the value the block loops write to a cell is a grey level in `[0, 256)` |
| HillCipher.HillApply | HillCipher.py:26-37 | the output has the input's shape and every entry lies in `[0, 256)` |
| HillCipher.HillCell | HillCipher.py:28-37 | output cell `(r, c)` is row `r mod n` of the key times column `c` of its block, zero-padded below the image, modulo 256 |
| HillCipher.EncryptedColumn | HillCipher.py:28-37 | for a full block, each block column of the encrypted grid is congruent modulo 256 to the key times the plain block column |
| HillCipher.HillLocal | HillCipher.py:30-37 | inputs that agree on the block containing `(r, c)` give the same output there |
| HillCipher.HillRoundTrip | HillCipher.py:23-37 | if `Kinv * K` is the identity modulo 256 and the height is a multiple of `n`, decryption restores a grey-level grid exactly, narrow last block column included |
| HillCipher.HillCipherImage | HillCipher.py:18-39 | ValueError exactly when the key square is empty or, in decrypt mode, not invertible modulo 256; otherwise the input's shape with grey levels in `[0, 256)` |
| HillCipher.HillCipherRoundTrip | HillCipher.py:18-39 | with the inverse the cipher computes as a left inverse and a height that is a multiple of `n`, `decrypt(encrypt(img)) == img` |
| HillCipher.HillCipherRoundTrip2 | HillCipher.py:11-39 | with a 2 x 2 key of odd determinant and an even height, `decrypt(encrypt(img)) == img` unconditionally |
| Cypher.ShiftChar | Cypher.py:9 | the new code lies in `[0, 128)` and is congruent to the old code plus the shift |
| Cypher.ShiftEncrypt | Cypher.py:8-9 | same length, and code `i` is `(ord(para[i]) + key) % 128`, so below 128 |
| Cypher.ShiftDecrypt | Cypher.py:11-12 | same length, and code `i` is `(ord(encrypted[i]) - key) % 128`, so below 128 |
| Cypher.ShiftCharCompose | Cypher.py:9 | shifting by `a` and then by `b` is shifting by `a + b` |
| Cypher.ShiftRoundTrip | Cypher.py:8-12 | `decrypt(encrypt(s))` reduces every code modulo 128, so it equals `s` when all codes are below 128 |
| Cypher.ShiftRoundTripReverse | Cypher.py:8-12 | `encrypt(decrypt(s)) == s` when all codes are below 128 |
| Cypher.ShiftKeys | Cypher.py:8-12 | decrypting with `k` is encrypting with `-k`, and two encryptions add their keys |
| Cypher.ProcessPixel | Cypher.py:19-27 | ValueError exactly when the pixel does not have three components or the operation is neither `"encrypt"` nor `"decrypt"`; otherwise three equal levels in `[0, 256)` congruent to red plus or minus the key |
| Cypher.EncryptPixel | Cypher.py:29-30 | succeeds exactly on three-component pixels and returns a grey pixel whose level is congruent to red plus the key modulo 256 |
| Cypher.DecryptPixel | Cypher.py:32-33 | succeeds exactly on three-component pixels and returns a grey pixel whose level is congruent to red minus the key modulo 256 |
| Cypher.ProcessPixelRedOnly | Cypher.py:19-25 | green and blue never affect the result |
| Cypher.PixelRoundTrip | Cypher.py:23-33 | decrypting an encrypted pixel with red level `r` in `[0, 256)` gives `(r, r, r)` |

## Left out

- `AnalysisOfBlock.py` is not part of this model. Its AES and triple-DES come from a cryptography library, and the rest is timing and table printing.
- Image and console I/O is left out:
  - `load_image`, `save_image`, `resize_image`, `encrypt_image` and `decrypt_image` in `PlayFairImage.py`;
  - `read_and_prepare_image` and `save_image` in `HillCipher.py`;
  - `apply_cipher`, `show_images`, `image_cypher` and `ascii_cypher` in `Cypher.py`.
  These are file, PIL, matplotlib and `input()` calls. A key image arrives as an integer grid, and a pixel as a list of integers.
- `convert_to_grayscale`, `process_chunks` and `flip_chunk` in `PlayFairImage.py` are left out. They are floating-point weights and `uint8` wrap-around image arithmetic, not cipher logic.
- The module-level demo at `PlayFair.py:99-108` is not replayed. `PlayFair.DemoSegmentation` covers only how its plaintext `ATTACKTONIGHT` is cut into digraphs. `PlayFair.GeneratedRoundTrip` is a general statement over every key whose grid is built; it is not instantiated with the demo key `TODAY123`, because the grid for it would have to be computed symbol by symbol. The calls at the end of `PlayFairImage.py` and `HillCipher.py` and the `__main__` block of `Cypher.py` are file and console I/O.
- `HillCipher.MatrixModInv`: numpy's floating-point determinant and inverse, with their rounding, are replaced by the exact cofactor determinant and adjugate. The exact model therefore accepts keys the script rejects. Every float64 of magnitude at least 2^53 is an even integer, so once `|det| >= 2^53` the rounded determinant is even and `pow(det, -1, 256)` raises ValueError, while the model decrypts whenever the exact determinant is odd. Such determinants are typical for grey-level key squares larger than about 8 x 8. Once the float determinant overflows to infinity, `int(np.round(inf))` raises OverflowError, which is not a ValueError and is not modelled. Below 2^53 the float results can still differ by rounding for ill-conditioned keys.
- `HillCipher.MatrixModInv`: `M * inv == I (mod m)` is proved for 2 x 2 keys only (`MatrixModInv2`). For larger keys the round trip takes it as a precondition (`HillCipherRoundTrip`), because `M * adj(M) == det(M) * I` is not proved for general `n`.
- `HillCipher.MatrixModInv` requires `modulus > 0`. The script only ever passes 256. A singular key is reported as ValueError whatever the modulus. numpy's floating-point LU may not detect every exactly singular matrix, and that is not modelled.
- `HillCipher.HillRoundTrip` requires the height to be a multiple of the key size. Bottom-edge blocks lose the key-product rows beyond the image when they are cropped, so those rows do not round-trip in general.
- `HillCipher.HillApply` uses unbounded integers. numpy's `int64` could overflow in `np.dot` for huge entries or keys.
- `HillCipher.HillApply` is stated cell by cell: each output cell is the entry of its block's encoded matrix. It does not replay the two loops. The loops write disjoint blocks that cover the grid, which `BlockStart` states.
- `Text.UpperChar` maps only ASCII `a`-`z`. Python's full Unicode case mapping is not modelled. That mapping can change length, for example `ß` -> `SS`.
- `PlayFair.EncryptPlayfair`, `PlayFair.DecryptPlayfair`, `PlayFairImage.PlayfairEncrypt` and `PlayFairImage.PlayfairDecrypt` require a grid of the script's shape (5 x 6 or 5 x 5). The scripts wrap at their fixed 5 and 6, not at the grid's own size. On a smaller grid that indexes outside a row, and on a larger one it wraps early. Neither case is modelled.
- `HillCipher.PadBlock` only states the shape in its own contract, and `HillCipher.EncodeBlock` only the shape and the range. `HillCipher.HillCell` states what their entries are.

Behaviour of the code that a reader might not expect:
- Building the 5 x 6 grid raises ValueError for a key with a lower-case letter whose capital does not also occur in the key, such as `"today"`; `"aA"` builds a grid (`PlayFair.MixedCaseKeyBuilds`, see ## Findings).
- The Hill round trip is exact only when the height is a multiple of the key size.
- The Playfair round trips return the text with every `X` removed, including `X`s that belonged to the plaintext. The 5 x 6 one also right-strips whitespace.

## Findings

| source | as written | input that shows it | evidently intended | confidence | as-written member | corrected member |
|---|---|---|---|---|---|---|
| PlayFair.py:5 | sorts the symbols of `key.upper()` by `key.index`, an index into the original key | `generate_matrix("today")`: `T` is not in `"today"`, so `key.index` raises ValueError | sort by `key.upper().index`, so that every key builds a grid | high, not executed | PlayFair.LowerCaseKeyFails | PlayFair.GenerateMatrixCorrected |

=== FILE: cypher.dfy ===
/** The shift ciphers of `Cypher.py`: `ShiftCypher` shifts every character
    code modulo 128, and `ShiftCypherInts` replaces a pixel by three copies
    of its shifted red component modulo 256. The key is the object's `key`
    field, passed here as a parameter. */
module Cypher {
  import opened Results
  import opened ModArith

  /** The character codes `ShiftCypher` produces: `0 <= code < 128`. */
  const CharRange: int := 128

  /** The channel values `ShiftCypherInts` produces: `0 <= value < 256`. */
  const ChannelRange: int := 256

  /** `chr((ord(x) + shift) % 128)` for one character. */
  function ShiftChar(x: char, shift: int): (y: char)
    ensures 0 <= y as int < CharRange
    ensures y as int % CharRange == (x as int + shift) % CharRange
  {
    var v := (x as int + shift) % CharRange;
    ModIdempotent(x as int + shift, CharRange);
    v as char
  }

  /** `ShiftCypher(key).encrypt(para)`. */
  function ShiftEncrypt(key: int, para: string): (r: string)
    ensures |r| == |para|
    ensures forall i :: 0 <= i < |r| ==> 0 <= r[i] as int < CharRange
    ensures forall i :: 0 <= i < |r| ==> r[i] as int == (para[i] as int + key) % CharRange
  {
    seq(|para|, i requires 0 <= i < |para| => ShiftChar(para[i], key))
  }

  /** `ShiftCypher(key).decrypt(encrypted)`. */
  function ShiftDecrypt(key: int, encrypted: string): (r: string)
    ensures |r| == |encrypted|
    ensures forall i :: 0 <= i < |r| ==> 0 <= r[i] as int < CharRange
    ensures forall i :: 0 <= i < |r| ==> r[i] as int == (encrypted[i] as int - key) % CharRange
  {
    seq(|encrypted|, i requires 0 <= i < |encrypted| => ShiftChar(encrypted[i], -key))
  }

  /** Shifting by `a` and then by `b` is shifting by `a + b`. */
  lemma {:induction false} ShiftCharCompose(x: char, a: int, b: int)
    ensures ShiftChar(ShiftChar(x, a), b) == ShiftChar(x, a + b)
  {
    var y := ShiftChar(x, a);
    ModAdd(y as int, b, CharRange);
    ModAdd(x as int + a, b, CharRange);
    ModIdempotent(b, CharRange);
    assert (y as int + b) % CharRange == (x as int + a + b) % CharRange;
  }

  /** Decrypting undoes encrypting on the codes below 128; any other code comes back reduced modulo 128. */
  lemma {:induction false} ShiftRoundTrip(key: int, s: string)
    ensures forall i :: 0 <= i < |s| ==> ShiftDecrypt(key, ShiftEncrypt(key, s))[i] as int == s[i] as int % CharRange
    ensures (forall i :: 0 <= i < |s| ==> s[i] as int < CharRange) ==> ShiftDecrypt(key, ShiftEncrypt(key, s)) == s
  {
    forall i | 0 <= i < |s|
      ensures ShiftDecrypt(key, ShiftEncrypt(key, s))[i] as int == s[i] as int % CharRange
    {
      ShiftCharCompose(s[i], key, -key);
      assert s[i] as int + key + -key == s[i] as int + 0;
    }
  }

  /** Encrypting undoes decrypting just the same way. */
  lemma {:induction false} ShiftRoundTripReverse(key: int, s: string)
    requires forall i :: 0 <= i < |s| ==> s[i] as int < CharRange
    ensures ShiftEncrypt(key, ShiftDecrypt(key, s)) == s
  {
    forall i | 0 <= i < |s|
      ensures ShiftEncrypt(key, ShiftDecrypt(key, s))[i] == s[i]
    {
      ShiftCharCompose(s[i], -key, key);
      assert s[i] as int + -key + key == s[i] as int + 0;
    }
  }

  /** Decrypting with `key` is encrypting with `-key`, and two encryptions add their keys. */
  lemma {:induction false} ShiftKeys(a: int, b: int, s: string)
    ensures ShiftDecrypt(a, s) == ShiftEncrypt(-a, s)
    ensures ShiftEncrypt(b, ShiftEncrypt(a, s)) == ShiftEncrypt(a + b, s)
  {
    forall i | 0 <= i < |s|
      ensures ShiftEncrypt(b, ShiftEncrypt(a, s))[i] == ShiftEncrypt(a + b, s)[i]
    {
      ShiftCharCompose(s[i], a, b);
    }
  }

  /** An RGB pixel `(r, g, b)`. */
  datatype Pixel = Pixel(r: int, g: int, b: int)

  /** `ShiftCypherInts(key).process_pixel(pixel, operation)`. The pixel is
      unpacked into exactly three components (otherwise Python raises
      ValueError); the grey level it computes from them is never used. */
  function ProcessPixel(key: int, pixel: seq<int>, operation: string): (r: Result<Pixel>)
    ensures r.Err? <==> |pixel| != 3 || (operation != "encrypt" && operation != "decrypt")
    ensures r.Err? ==> r.error == ValueError
    ensures r.Ok? ==> r.value.r == r.value.g == r.value.b && 0 <= r.value.r < ChannelRange
    ensures r.Ok? && operation == "encrypt" ==> r.value.r % ChannelRange == (pixel[0] + key) % ChannelRange
    ensures r.Ok? && operation == "decrypt" ==> r.value.r % ChannelRange == (pixel[0] - key) % ChannelRange
  {
    if |pixel| != 3 then Err(ValueError)
    else
      var red := pixel[0];
      if operation == "encrypt" then
        var v := (red + key) % ChannelRange;
        ModIdempotent(red + key, ChannelRange);
        Ok(Pixel(v, v, v))
      else if operation == "decrypt" then
        var v := (red - key) % ChannelRange;
        ModIdempotent(red - key, ChannelRange);
        Ok(Pixel(v, v, v))
      else Err(ValueError)
  }

  /** `ShiftCypherInts(key).encrypt(pixel)`. */
  function EncryptPixel(key: int, pixel: seq<int>): (r: Result<Pixel>)
    ensures r.Ok? <==> |pixel| == 3
    ensures r.Ok? ==> r.value.r == r.value.g == r.value.b
    ensures r.Ok? ==> 0 <= r.value.r < ChannelRange
    ensures r.Ok? ==> r.value.r % ChannelRange == (pixel[0] + key) % ChannelRange
  {
    ProcessPixel(key, pixel, "encrypt")
  }

  /** `ShiftCypherInts(key).decrypt(pixel)`. */
  function DecryptPixel(key: int, pixel: seq<int>): (r: Result<Pixel>)
    ensures r.Ok? <==> |pixel| == 3
    ensures r.Ok? ==> r.value.r == r.value.g == r.value.b
    ensures r.Ok? ==> 0 <= r.value.r < ChannelRange
    ensures r.Ok? ==> r.value.r % ChannelRange == (pixel[0] - key) % ChannelRange
  {
    ProcessPixel(key, pixel, "decrypt")
  }

  /** The output depends on the red component only: green and blue are ignored. */
  lemma {:induction false} ProcessPixelRedOnly(key: int, p: seq<int>, q: seq<int>, operation: string)
    requires |p| == |q| == 3 && p[0] == q[0]
    ensures ProcessPixel(key, p, operation) == ProcessPixel(key, q, operation)
  {
  }

  /** Decrypting an encrypted pixel whose red component is a channel value
      gives the grey pixel `(r, r, r)`: the colour is lost, the red level kept. */
  lemma {:induction false} PixelRoundTrip(key: int, p: seq<int>)
    requires |p| == 3 && 0 <= p[0] < ChannelRange
    ensures EncryptPixel(key, p).Ok?
    ensures var e := EncryptPixel(key, p).value;
            DecryptPixel(key, [e.r, e.g, e.b]) == Ok(Pixel(p[0], p[0], p[0]))
  {
    var e := EncryptPixel(key, p).value;
    var d := DecryptPixel(key, [e.r, e.g, e.b]).value;
    ModAdd(e.r, -key, ChannelRange);
    ModAdd(p[0] + key, -key, ChannelRange);
    assert p[0] + key + -key == p[0];
    ModIdempotent(-key, ChannelRange);
    ModUnique(d.r, 0, d.r, ChannelRange);
    ModUnique(p[0], 0, p[0], ChannelRange);
  }
}

=== FILE: hill_cipher.dfy ===
/** The Hill block cipher of `HillCipher.py` on a grey-scale image held as a
    2-D integer grid: the key is the top-left square of a key image, the
    image is cut into key-sized blocks from the top-left corner, each block
    is zero-padded to a full square, multiplied on the left by the key
    modulo 256 and cropped back to its real size. Decryption uses the key's
    inverse modulo 256, `det^-1 * adj(K) mod 256`. */
module HillCipher {
  import opened Results
  import opened ModArith
  import opened IntMatrix

  /** Grey levels and all key arithmetic are modulo 256. */
  const Modulus: int := 256

  function Min(a: nat, b: nat): nat {
    if a <= b then a else b
  }

  /** `prepare_key(key_image)`: the top-left `s x s` square, `s = min(h, w)`. */
  function PrepareKey(key: Matrix): (k: Matrix)
    requires IsRect(key)
    ensures IsSquare(k, Min(|key|, Width(key)))
    ensures forall i, j :: 0 <= i < |k| && 0 <= j < |k| ==> k[i][j] == key[i][j]
  {
    var s := Min(|key|, Width(key));
    seq(s, i requires 0 <= i < s => key[i][..s])
  }

  /** `matrix_mod_inv(matrix, modulus)`: `det^-1 * adj(a)` reduced modulo
      `modulus`, with the exact determinant and adjugate. ValueError when the
      determinant has no inverse modulo `modulus` (`pow(det, -1, modulus)`),
      and also when the matrix is singular: `np.linalg.inv` then raises
      LinAlgError, a subclass of ValueError. Only modulo 1 does a singular
      matrix get past `pow`, which returns 0 there. */
  function MatrixModInv(a: Matrix, modulus: int): (r: Result<Matrix>)
    requires IsSquare(a, |a|) && modulus > 0
    ensures r.Err? <==> !Invertible(Det(a), modulus) || Det(a) == 0
    ensures r.Err? ==> r.error == ValueError
    ensures r.Ok? ==> IsSquare(r.value, |a|)
    ensures r.Ok? ==> forall i, j :: 0 <= i < |a| && 0 <= j < |a| ==> 0 <= r.value[i][j] < modulus
    ensures r.Ok? ==> var d := ModInv(Det(a), modulus);
              d.Some? && IsModInverse(Det(a), d.value, modulus)
              && forall i, j :: 0 <= i < |a| && 0 <= j < |a| ==> r.value[i][j] == (d.value * Adjugate(a)[i][j]) % modulus
  {
    var det := Det(a);
    var d := ModInv(det, modulus);
    if d.None? then Err(ValueError)
    else if det == 0 then Err(ValueError)
    else Ok(ScaleMod(d.value, Adjugate(a), modulus))
  }

  /** A singular matrix is rejected by `pow` for every modulus above 1, and
      by `np.linalg.inv` modulo 1, where `pow(0, -1, 1)` succeeds. */
  lemma {:induction false} SingularRejected(a: Matrix, modulus: int)
    requires IsSquare(a, |a|) && modulus > 0 && Det(a) == 0
    ensures modulus > 1 ==> !Invertible(Det(a), modulus)
    ensures modulus == 1 ==> Invertible(Det(a), modulus)
    ensures MatrixModInv(a, modulus) == Err(ValueError)
  {
    if modulus == 1 {
      assert IsModInverse(0, 0, 1);
    }
  }

  /** `np.mod(d * b, m)`: every entry scaled by `d` and reduced into `[0, m)`. */
  function ScaleMod(d: int, b: Matrix, m: int): (r: Matrix)
    requires IsSquare(b, |b|) && m > 0
    ensures IsSquare(r, |b|)
    ensures forall i, j :: 0 <= i < |b| && 0 <= j < |b| ==> 0 <= r[i][j] < m
    ensures forall i, j :: 0 <= i < |b| && 0 <= j < |b| ==> r[i][j] == (d * b[i][j]) % m
  {
    seq(|b|, i requires 0 <= i < |b| =>
      seq(|b|, j requires 0 <= j < |b| => (d * b[i][j]) % m))
  }

  /** Modulo 256 the inversion fails exactly when the determinant is even. */
  lemma {:induction false} MatrixModInvParity(a: Matrix)
    requires IsSquare(a, |a|)
    ensures MatrixModInv(a, Modulus).Err? <==> Det(a) % 2 == 0
  {
    Invertible256(Det(a));
  }

  /** For a 2 x 2 matrix the computed inverse is a two-sided inverse modulo `m`. */
  lemma {:induction false} MatrixModInv2(a: Matrix, m: int)
    requires IsSquare(a, 2) && m > 0
    requires MatrixModInv(a, m).Ok?
    ensures IsIdentityMod(MatMul(MatrixModInv(a, m).value, a), 2, m)
    ensures IsIdentityMod(MatMul(a, MatrixModInv(a, m).value), 2, m)
  {
    var r := MatrixModInv(a, m).value;
    var det := Det(a);
    var d := ModInv(det, m).value;
    Det2(a);
    Adjugate2(a);
    var s := Scaled2(a, d);
    assert forall i, j :: 0 <= i < 2 && 0 <= j < 2 ==> r[i][j] == s[i][j] % m;
    assert (d * det) % m == 1 % m by {
      assert d * det == det * d;
    }
    InverseLeft2(a, s, r, d, m);
    InverseRight2(a, s, r, d, m);
  }

  /** `d` times the adjugate of a 2 x 2 matrix, before reduction. */
  function Scaled2(a: Matrix, d: int): (s: Matrix)
    requires IsSquare(a, 2)
    ensures IsSquare(s, 2)
  {
    [[d * a[1][1], d * -a[0][1]], [d * -a[1][0], d * a[0][0]]]
  }

  /** The eight products of `d * adj([[p, q], [r, t]])` with `[[p, q], [r, t]]`, entry by entry. */
  lemma {:induction false} Adjugate2Identities(d: int, p: int, q: int, r: int, t: int)
    ensures (d * t) * p + (d * -q) * r == d * (p * t - q * r)
    ensures (d * t) * q + (d * -q) * t == d * 0
    ensures (d * -r) * p + (d * p) * r == d * 0
    ensures (d * -r) * q + (d * p) * t == d * (p * t - q * r)
    ensures p * (d * t) + q * (d * -r) == d * (p * t - q * r)
    ensures p * (d * -q) + q * (d * p) == d * 0
    ensures r * (d * t) + t * (d * -r) == d * 0
    ensures r * (d * -q) + t * (d * p) == d * (p * t - q * r)
  {
    assert (d * t) * p + (d * -q) * r == d * (p * t) - d * (q * r);
    assert (d * -r) * q + (d * p) * t == d * (p * t) - d * (q * r);
    assert p * (d * t) + q * (d * -r) == d * (p * t) - d * (q * r);
    assert r * (d * -q) + t * (d * p) == d * (p * t) - d * (q * r);
  }

  /** `d * adj(a) * a` and `a * d * adj(a)` are `d * det(a)` times the identity. */
  lemma {:induction false} Scaled2Products(a: Matrix, d: int, i: nat, j: nat)
    requires IsSquare(a, 2) && i < 2 && j < 2
    ensures Dot(Scaled2(a, d)[i], Col(a, j)) == d * (if i == j then a[0][0] * a[1][1] - a[0][1] * a[1][0] else 0)
    ensures Dot(a[i], Col(Scaled2(a, d), j)) == d * (if i == j then a[0][0] * a[1][1] - a[0][1] * a[1][0] else 0)
  {
    var s := Scaled2(a, d);
    Dot2(s[i], Col(a, j));
    Dot2(a[i], Col(s, j));
    Adjugate2Identities(d, a[0][0], a[0][1], a[1][0], a[1][1]);
  }

  lemma {:induction false} InverseLeft2(a: Matrix, s: Matrix, r: Matrix, d: int, m: int)
    requires IsSquare(a, 2) && IsSquare(r, 2) && m > 0 && s == Scaled2(a, d)
    requires forall i, j :: 0 <= i < 2 && 0 <= j < 2 ==> r[i][j] == s[i][j] % m
    requires (d * (a[0][0] * a[1][1] - a[0][1] * a[1][0])) % m == 1 % m
    ensures IsIdentityMod(MatMul(r, a), 2, m)
  {
    forall i, j | 0 <= i < 2 && 0 <= j < 2
      ensures MatMul(r, a)[i][j] % m == (if i == j then 1 else 0) % m
    {
      ModIdempotent(s[i][0], m);
      ModIdempotent(s[i][1], m);
      DotMod(r[i], s[i], Col(a, j), Col(a, j), m);
      Scaled2Products(a, d, i, j);
    }
  }

  lemma {:induction false} InverseRight2(a: Matrix, s: Matrix, r: Matrix, d: int, m: int)
    requires IsSquare(a, 2) && IsSquare(r, 2) && m > 0 && s == Scaled2(a, d)
    requires forall i, j :: 0 <= i < 2 && 0 <= j < 2 ==> r[i][j] == s[i][j] % m
    requires (d * (a[0][0] * a[1][1] - a[0][1] * a[1][0])) % m == 1 % m
    ensures IsIdentityMod(MatMul(a, r), 2, m)
  {
    forall i, j | 0 <= i < 2 && 0 <= j < 2
      ensures MatMul(a, r)[i][j] % m == (if i == j then 1 else 0) % m
    {
      ModIdempotent(s[0][j], m);
      ModIdempotent(s[1][j], m);
      DotMod(a[i], a[i], Col(r, j), Col(s, j), m);
      Scaled2Products(a, d, i, j);
    }
  }

  /** The block row (or column) containing index `r`: the loops of
      `hill_cipher_image` start blocks at `0, n, 2n, ...`, so every index lies
      in exactly one block, `r % n` places past its start. */
  function BlockStart(r: nat, n: nat): (s: nat)
    requires n > 0
    ensures s <= r < s + n
    ensures r - s == r % n
    ensures s % n == 0
  {
    assert r == (r / n) * n + r % n;
    ModUnique(r - r % n, r / n, 0, n);
    r - r % n
  }

  /** With a height that is a multiple of `n`, every block lies wholly inside. */
  lemma {:induction false} BlockInside(r: nat, n: nat, h: nat)
    requires n > 0 && h % n == 0 && r < h
    ensures BlockStart(r, n) + n <= h
  {
    var s := BlockStart(r, n);
    assert s == (s / n) * n;
    assert h == (h / n) * n;
    var q := h / n - s / n;
    assert h - s == q * n;
    assert q >= 1;
    assert (q - 1) * n >= 0;
  }

  /** Index `s + q` of the block starting at `s` is `q` places into it. */
  lemma {:induction false} BlockShift(s: nat, q: nat, n: nat)
    requires n > 0 && s % n == 0 && q < n
    ensures (s + q) % n == q && BlockStart(s + q, n) == s
  {
    assert s == (s / n) * n;
    ModUnique(s + q, s / n, q, n);
  }

  /** `image_array[i:i+n, j:j+n]`, zero-padded after its last row and column
      to `n x n` (`np.pad` in constant mode); a full block is left as it is. */
  function PadBlock(img: Matrix, i: nat, j: nat, n: nat): (b: Matrix)
    requires IsRect(img)
    ensures IsSquare(b, n)
  {
    seq(n, a requires 0 <= a < n =>
      seq(n, c requires 0 <= c < n =>
        if i + a < |img| && j + c < Width(img) then img[i + a][j + c] else 0))
  }

  /** `np.dot(key_matrix, padded_block) % 256`. */
  function EncodeBlock(k: Matrix, b: Matrix): (e: Matrix)
    requires IsSquare(k, |k|) && IsSquare(b, |k|)
    ensures IsSquare(e, |k|)
    ensures forall a, c :: 0 <= a < |k| && 0 <= c < |k| ==> 0 <= e[a][c] < Modulus
  {
    var p := MatMul(k, b);
    seq(|k|, a requires 0 <= a < |k| =>
      seq(|k|, c requires 0 <= c < |k| => p[a][c] % Modulus))
  }

  /** The value the block loops of `hill_cipher_image` write to cell `(r, c)`:
      the entry of the encoded block containing it, which is cropped to the
      block's real rows and columns. */
  function HillEntry(img: Matrix, k: Matrix, r: nat, c: nat): (v: int)
    requires IsRect(img) && |k| > 0 && IsSquare(k, |k|)
    requires r < |img| && c < Width(img)
    ensures 0 <= v < Modulus
  {
    var n := |k|;
    var i := BlockStart(r, n);
    var j := BlockStart(c, n);
    EncodeBlock(k, PadBlock(img, i, j, n))[r - i][c - j]
  }

  /** The block loops of `hill_cipher_image` with key `k` of size `n > 0`:
      every cell is written once, by the block containing it. */
  function HillApply(img: Matrix, k: Matrix): (out: Matrix)
    requires IsRect(img) && |k| > 0 && IsSquare(k, |k|)
    ensures |out| == |img| && forall r :: 0 <= r < |out| ==> |out[r]| == Width(img)
    ensures forall r, c :: 0 <= r < |out| && 0 <= c < Width(img) ==> 0 <= out[r][c] < Modulus
  {
    seq(|img|, r requires 0 <= r < |img| =>
      seq(Width(img), c requires 0 <= c < Width(img) => HillEntry(img, k, r, c)))
  }

  /** Column `c` of the block starting at row `s`, zero-padded below the image. */
  function Column(img: Matrix, s: nat, c: nat, n: nat): (x: seq<int>)
    requires IsRect(img) && c < Width(img)
    ensures |x| == n
    ensures forall q :: 0 <= q < n ==> x[q] == if s + q < |img| then img[s + q][c] else 0
  {
    seq(n, q requires 0 <= q < n => if s + q < |img| then img[s + q][c] else 0)
  }

  /** Each output cell is the key row of its place in the block times its
      zero-padded block column, modulo 256. */
  lemma {:induction false} HillCell(img: Matrix, k: Matrix, r: nat, c: nat)
    requires IsRect(img) && |k| > 0 && IsSquare(k, |k|)
    requires r < |img| && c < Width(img)
    ensures HillApply(img, k)[r][c] == Dot(k[r % |k|], Column(img, BlockStart(r, |k|), c, |k|)) % Modulus
  {
    var n := |k|;
    var i := BlockStart(r, n);
    var j := BlockStart(c, n);
    var b := PadBlock(img, i, j, n);
    assert Col(b, c - j) == Column(img, i, c, n);
  }

  /** Locality: an output cell depends only on the key and on the input
      block containing it. */
  lemma {:induction false} HillLocal(img: Matrix, img': Matrix, k: Matrix, r: nat, c: nat)
    requires IsRect(img) && IsRect(img') && |k| > 0 && IsSquare(k, |k|)
    requires |img| == |img'| && Width(img) == Width(img')
    requires r < |img| && c < Width(img)
    requires var i := BlockStart(r, |k|);
             var j := BlockStart(c, |k|);
             forall x, y :: i <= x < i + |k| && x < |img| && j <= y < j + |k| && y < Width(img) ==> img[x][y] == img'[x][y]
    ensures HillApply(img, k)[r][c] == HillApply(img', k)[r][c]
  {
    var n := |k|;
    var i := BlockStart(r, n);
    var j := BlockStart(c, n);
    var b := PadBlock(img, i, j, n);
    var b' := PadBlock(img', i, j, n);
    forall a | 0 <= a < n ensures b[a] == b'[a] {
      forall y | 0 <= y < n ensures b[a][y] == b'[a][y] {
        if i + a < |img| && j + y < Width(img) {
          assert b[a][y] == img[i + a][j + y];
          assert b'[a][y] == img'[i + a][j + y];
        }
      }
    }
    assert b == b';
  }

  /** A grid of grey levels: every entry in `[0, 256)`. */
  predicate IsGrey(img: Matrix) {
    forall r, c :: 0 <= r < |img| && 0 <= c < |img[r]| ==> 0 <= img[r][c] < Modulus
  }

  /** Decrypting one cell of an encrypted grid gives it back. */
  lemma {:induction false} HillRoundTripCell(img: Matrix, k: Matrix, kinv: Matrix, r: nat, c: nat)
    requires IsRect(img) && IsGrey(img)
    requires |k| > 0 && IsSquare(k, |k|) && IsSquare(kinv, |k|)
    requires IsIdentityMod(MatMul(kinv, k), |k|, Modulus)
    requires |img| % |k| == 0
    requires r < |img| && c < Width(img)
    ensures IsRect(HillApply(img, k))
    ensures HillApply(HillApply(img, k), kinv)[r][c] == img[r][c]
  {
    var n := |k|;
    var t := r % n;
    var e := HillApply(img, k);
    var s := BlockStart(r, n);
    var x := Column(img, s, c, n);
    var y := Column(e, s, c, n);
    var v := img[r][c];
    assert IsRect(e);
    BlockInside(r, n, |img|);
    assert x[t] == v;
    HillCell(e, kinv, r, c);
    assert HillApply(e, kinv)[r][c] == Dot(kinv[t], y) % Modulus;
    EncryptedColumn(img, k, s, c);
    DotMod(kinv[t], kinv[t], y, MatVec(k, x), Modulus);
    LeftInverseDot(kinv, k, t, x);
    assert Dot(kinv[t], y) % Modulus == v % Modulus;
    assert 0 <= v < Modulus;
    ModUnique(v, 0, v, Modulus);
  }

  /** A whole block column of the encrypted grid is the key times the
      plain block column, modulo 256. */
  lemma {:induction false} EncryptedColumn(img: Matrix, k: Matrix, s: nat, c: nat)
    requires IsRect(img) && |k| > 0 && IsSquare(k, |k|)
    requires s % |k| == 0 && s + |k| <= |img| && c < Width(img)
    ensures IsRect(HillApply(img, k))
    ensures var y := Column(HillApply(img, k), s, c, |k|);
            var z := MatVec(k, Column(img, s, c, |k|));
            forall q :: 0 <= q < |k| ==> y[q] % Modulus == z[q] % Modulus
  {
    var e := HillApply(img, k);
    assert IsRect(e);
    forall q | 0 <= q < |k|
      ensures Column(e, s, c, |k|)[q] % Modulus == MatVec(k, Column(img, s, c, |k|))[q] % Modulus
    {
      EncryptedEntry(img, k, s, c, q);
    }
  }

  /** Entry `q` of a block column of the encrypted grid. */
  lemma {:induction false} EncryptedEntry(img: Matrix, k: Matrix, s: nat, c: nat, q: nat)
    requires IsRect(img) && |k| > 0 && IsSquare(k, |k|)
    requires s % |k| == 0 && s + |k| <= |img| && c < Width(img) && q < |k|
    ensures IsRect(HillApply(img, k))
    ensures Column(HillApply(img, k), s, c, |k|)[q] % Modulus == MatVec(k, Column(img, s, c, |k|))[q] % Modulus
  {
    var n := |k|;
    var e := HillApply(img, k);
    assert IsRect(e);
    var x := Column(img, s, c, n);
    var w := Dot(k[q], x);
    var t := s + q;
    BlockShift(s, q, n);
    assert t % n == q && BlockStart(t, n) == s;
    HillCell(img, k, t, c);
    assert e[t][c] == Dot(k[t % n], Column(img, BlockStart(t, n), c, n)) % Modulus;
    assert e[t][c] == w % Modulus;
    assert Column(e, s, c, n)[q] == e[t][c];
    assert MatVec(k, x)[q] == w;
    ModIdempotent(w, Modulus);
  }

  /** A row of a left inverse modulo 256 undoes the key on any column. */
  lemma {:induction false} LeftInverseDot(kinv: Matrix, k: Matrix, t: nat, x: seq<int>)
    requires |k| > 0 && IsSquare(k, |k|) && IsSquare(kinv, |k|)
    requires IsIdentityMod(MatMul(kinv, k), |k|, Modulus)
    requires t < |k| && |x| == |k|
    ensures Dot(kinv[t], MatVec(k, x)) % Modulus == x[t] % Modulus
  {
    var n := |k|;
    DotAssoc(kinv[t], k, x);
    var u := VecMat(kinv[t], k, n);
    assert forall l :: 0 <= l < n ==> u[l] == MatMul(kinv, k)[t][l];
    DotMod(u, Unit(n, t), x, x, Modulus);
    DotUnit(n, t, x);
  }

  /** Block round trip: when `kinv * k` is the identity modulo 256 and the
      height is a multiple of the block size, decrypting the encrypted grid
      gives back every grey level. A narrow last block column is no obstacle,
      because columns are transformed independently. */
  lemma {:induction false} HillRoundTrip(img: Matrix, k: Matrix, kinv: Matrix)
    requires IsRect(img) && IsGrey(img)
    requires |k| > 0 && IsSquare(k, |k|) && IsSquare(kinv, |k|)
    requires IsIdentityMod(MatMul(kinv, k), |k|, Modulus)
    requires |img| % |k| == 0
    ensures IsRect(HillApply(img, k))
    ensures HillApply(HillApply(img, k), kinv) == img
  {
    var e := HillApply(img, k);
    assert IsRect(e);
    var d := HillApply(e, kinv);
    forall r | 0 <= r < |img| ensures d[r] == img[r] {
      forall c | 0 <= c < Width(img) ensures d[r][c] == img[r][c] {
        HillRoundTripCell(img, k, kinv, r, c);
      }
    }
  }

  /** `hill_cipher_image(image_array, key, mode)`. Only `"decrypt"` inverts
      the key; any other mode encrypts. A key square of size 0 makes
      `range(0, h, 0)` raise ValueError, and so does an inversion failure.
      The final `astype(np.uint8)` keeps every entry, which already lies in `[0, 256)`. */
  function HillCipherImage(img: Matrix, key: Matrix, mode: string): (r: Result<Matrix>)
    requires IsRect(img) && IsRect(key)
    ensures r.Err? <==> |PrepareKey(key)| == 0 || (mode == "decrypt" && MatrixModInv(PrepareKey(key), Modulus).Err?)
    ensures r.Err? ==> r.error == ValueError
    ensures r.Ok? ==> |r.value| == |img| && forall i :: 0 <= i < |img| ==> |r.value[i]| == Width(img)
    ensures r.Ok? ==> IsGrey(r.value)
  {
    var k := PrepareKey(key);
    var k' :- if mode == "decrypt" then MatrixModInv(k, Modulus) else Ok(k);
    if |k| == 0 then Err(ValueError) else Ok(HillApply(img, k'))
  }

  /** Encrypting and then decrypting with the same key image gives the grid
      back, when the inverse the cipher computes is a left inverse modulo 256
      and the height is a multiple of the key size. */
  lemma {:induction false} HillCipherRoundTrip(img: Matrix, key: Matrix)
    requires IsRect(img) && IsGrey(img) && IsRect(key)
    requires |PrepareKey(key)| > 0 && |img| % |PrepareKey(key)| == 0
    requires MatrixModInv(PrepareKey(key), Modulus).Ok?
    requires IsIdentityMod(MatMul(MatrixModInv(PrepareKey(key), Modulus).value, PrepareKey(key)), |PrepareKey(key)|, Modulus)
    ensures HillCipherImage(img, key, "encrypt").Ok?
    ensures HillCipherImage(HillCipherImage(img, key, "encrypt").value, key, "decrypt") == Ok(img)
  {
    var k := PrepareKey(key);
    HillRoundTrip(img, k, MatrixModInv(k, Modulus).value);
  }

  /** With a 2 x 2 key square of odd determinant the round trip needs no
      further assumption about the inverse. */
  lemma {:induction false} HillCipherRoundTrip2(img: Matrix, key: Matrix)
    requires IsRect(img) && IsGrey(img) && IsRect(key)
    requires |PrepareKey(key)| == 2 && |img| % 2 == 0
    requires Det(PrepareKey(key)) % 2 == 1
    ensures HillCipherImage(img, key, "encrypt").Ok?
    ensures HillCipherImage(HillCipherImage(img, key, "encrypt").value, key, "decrypt") == Ok(img)
  {
    var k := PrepareKey(key);
    MatrixModInvParity(k);
    MatrixModInv2(k, Modulus);
    HillCipherRoundTrip(img, key);
  }
}

=== FILE: int_matrix.dfy ===
/** Integer matrices as lists of rows, with the exact arithmetic numpy's
    `np.dot` performs on integer arrays and an exact determinant and adjugate
    in place of the floating-point `np.linalg.det` and `np.linalg.inv`. */
module IntMatrix {
  import opened ModArith

  type Matrix = seq<seq<int>>

  /** The number of columns: the length of the first row, 0 when there are no rows. */
  function Width(a: Matrix): nat {
    if |a| == 0 then 0 else |a[0]|
  }

  /** Every row has the same length, as in a 2-D numpy array. */
  predicate IsRect(a: Matrix) {
    forall i :: 0 <= i < |a| ==> |a[i]| == Width(a)
  }

  predicate IsSquare(a: Matrix, n: nat) {
    |a| == n && forall i :: 0 <= i < n ==> |a[i]| == n
  }

  function Sum(s: seq<int>): int
    decreases |s|
  {
    if |s| == 0 then 0 else s[0] + Sum(s[1..])
  }

  /** The dot product of two vectors of the same length. */
  function Dot(u: seq<int>, v: seq<int>): int
    requires |u| == |v|
    decreases |u|
  {
    if |u| == 0 then 0 else u[0] * v[0] + Dot(u[1..], v[1..])
  }

  /** Column `j` of a matrix. */
  function Col(a: Matrix, j: nat): (c: seq<int>)
    requires forall i :: 0 <= i < |a| ==> j < |a[i]|
    ensures |c| == |a|
    ensures forall i :: 0 <= i < |a| ==> c[i] == a[i][j]
  {
    seq(|a|, i requires 0 <= i < |a| => a[i][j])
  }

  /** `np.dot(a, b)` of two integer matrices: row by column dot products. */
  function MatMul(a: Matrix, b: Matrix): (c: Matrix)
    requires IsRect(a) && IsRect(b) && Width(a) == |b|
    ensures |c| == |a| && forall i :: 0 <= i < |a| ==> |c[i]| == Width(b)
    ensures forall i, j :: 0 <= i < |a| && 0 <= j < Width(b) ==> c[i][j] == Dot(a[i], Col(b, j))
  {
    seq(|a|, i requires 0 <= i < |a| =>
      seq(Width(b), j requires 0 <= j < Width(b) => Dot(a[i], Col(b, j))))
  }

  /** The matrix times a column vector. */
  function MatVec(a: Matrix, x: seq<int>): (y: seq<int>)
    requires forall i :: 0 <= i < |a| ==> |a[i]| == |x|
    ensures |y| == |a|
    ensures forall i :: 0 <= i < |a| ==> y[i] == Dot(a[i], x)
  {
    seq(|a|, i requires 0 <= i < |a| && |a[i]| == |x| => Dot(a[i], x))
  }

  /** A row vector times the matrix. */
  function VecMat(u: seq<int>, a: Matrix, w: nat): (y: seq<int>)
    requires |u| == |a| && forall i :: 0 <= i < |a| ==> |a[i]| == w
    ensures |y| == w
    ensures forall j :: 0 <= j < w ==> y[j] == Dot(u, Col(a, j))
  {
    seq(w, j requires 0 <= j < w => Dot(u, Col(a, j)))
  }

  /** Row `s` of the identity matrix of size `n`. */
  function Unit(n: nat, s: nat): (e: seq<int>)
    ensures |e| == n
    ensures forall l :: 0 <= l < n ==> e[l] == if l == s then 1 else 0
  {
    seq(n, l requires 0 <= l < n => if l == s then 1 else 0)
  }

  /** The product is the identity matrix modulo `m`. */
  predicate IsIdentityMod(c: Matrix, n: nat, m: int)
    requires m > 0 && IsSquare(c, n)
  {
    forall i, j :: 0 <= i < n && 0 <= j < n ==> c[i][j] % m == (if i == j then 1 else 0) % m
  }

  /** The unit row picks out one entry. */
  lemma {:induction false} DotUnit(n: nat, s: nat, x: seq<int>)
    requires s < n == |x|
    ensures Dot(Unit(n, s), x) == x[s]
    decreases n
  {
    var e := Unit(n, s);
    if s == 0 {
      DotZero(e[1..], x[1..]);
    } else {
      assert e[1..] == Unit(n - 1, s - 1);
      DotUnit(n - 1, s - 1, x[1..]);
    }
  }

  /** A zero vector has dot product zero with anything. */
  lemma {:induction false} DotZero(u: seq<int>, x: seq<int>)
    requires |u| == |x|
    requires forall l :: 0 <= l < |u| ==> u[l] == 0
    ensures Dot(u, x) == 0
    decreases |u|
  {
    if |u| > 0 {
      DotZero(u[1..], x[1..]);
    }
  }

  /** Dot products respect congruence modulo `m` entry by entry, on either side. */
  lemma {:induction false} DotMod(u: seq<int>, u': seq<int>, v: seq<int>, v': seq<int>, m: int)
    requires m > 0 && |u| == |u'| == |v| == |v'|
    requires forall k :: 0 <= k < |u| ==> u[k] % m == u'[k] % m && v[k] % m == v'[k] % m
    ensures Dot(u, v) % m == Dot(u', v') % m
    decreases |u|
  {
    if |u| > 0 {
      DotMod(u[1..], u'[1..], v[1..], v'[1..], m);
      ModMul(u[0], u'[0], v[0], v'[0], m);
      ModAdd(u[0] * v[0], Dot(u[1..], v[1..]), m);
      ModAdd(u'[0] * v'[0], Dot(u'[1..], v'[1..]), m);
    }
  }

  /** The vector `c * u + w`. */
  function Combine(c: int, u: seq<int>, w: seq<int>): (z: seq<int>)
    requires |u| == |w|
    ensures |z| == |u|
    ensures forall l :: 0 <= l < |u| ==> z[l] == c * u[l] + w[l]
    decreases |u|
  {
    if |u| == 0 then [] else [c * u[0] + w[0]] + Combine(c, u[1..], w[1..])
  }

  /** The dot product is linear in its first argument. */
  lemma {:induction false} DotLinear(c: int, u: seq<int>, w: seq<int>, x: seq<int>)
    requires |u| == |w| == |x|
    ensures Dot(Combine(c, u, w), x) == c * Dot(u, x) + Dot(w, x)
    decreases |u|
  {
    if |u| > 0 {
      var z := Combine(c, u, w);
      assert z[1..] == Combine(c, u[1..], w[1..]);
      DotLinear(c, u[1..], w[1..], x[1..]);
      var du := Dot(u[1..], x[1..]);
      var dw := Dot(w[1..], x[1..]);
      var p := u[0] * x[0];
      assert z[0] * x[0] == c * p + w[0] * x[0];
      assert Dot(z, x) == (c * p + w[0] * x[0]) + (c * du + dw);
      assert c * (p + du) == c * p + c * du;
    }
  }

  /** Summing rows first or columns first gives the same double sum:
      `u . (a x) == (u a) . x`. */
  lemma {:induction false} DotAssoc(u: seq<int>, a: Matrix, x: seq<int>)
    requires |u| == |a| && forall i :: 0 <= i < |a| ==> |a[i]| == |x|
    ensures Dot(u, MatVec(a, x)) == Dot(VecMat(u, a, |x|), x)
    decreases |u|
  {
    var w := |x|;
    if |u| == 0 {
      DotZero(VecMat(u, a, w), x);
    } else {
      DotAssoc(u[1..], a[1..], x);
      assert MatVec(a, x)[1..] == MatVec(a[1..], x);
      var rest := VecMat(u[1..], a[1..], w);
      assert VecMat(u, a, w) == Combine(u[0], a[0], rest) by {
        forall l | 0 <= l < w
          ensures VecMat(u, a, w)[l] == u[0] * a[0][l] + rest[l]
        {
          assert Col(a, l)[1..] == Col(a[1..], l);
        }
      }
      DotLinear(u[0], a[0], rest, x);
    }
  }

  function Sign(k: nat): int {
    if k % 2 == 0 then 1 else -1
  }

  /** The matrix with row `i` and column `j` deleted. */
  function Minor(a: Matrix, i: nat, j: nat): (b: Matrix)
    requires IsSquare(a, |a|) && i < |a| && j < |a|
    ensures IsSquare(b, |a| - 1)
  {
    seq(|a| - 1, r requires 0 <= r < |a| - 1 =>
      var row := if r < i then a[r] else a[r + 1];
      row[..j] + row[j + 1..])
  }

  /** The exact determinant, by cofactor expansion along the first row
      (the empty matrix has determinant 1, as in numpy). */
  function Det(a: Matrix): (d: int)
    requires IsSquare(a, |a|)
    ensures |a| == 1 ==> d == a[0][0]
    decreases |a|
  {
    if |a| == 0 then 1
    else
      var terms := seq(|a|, j requires 0 <= j < |a| => Sign(j) * a[0][j] * Det(Minor(a, 0, j)));
      if |a| == 1 then
        assert Minor(a, 0, 0) == [];
        assert terms == [a[0][0]];
        assert Sum(terms) == a[0][0] + Sum([]);
        Sum(terms)
      else Sum(terms)
  }

  /** The adjugate: the transposed matrix of cofactors, equal to `det(a) * inv(a)`
      whenever `a` is invertible over the rationals. */
  function Adjugate(a: Matrix): (b: Matrix)
    requires IsSquare(a, |a|)
    ensures IsSquare(b, |a|)
  {
    seq(|a|, i requires 0 <= i < |a| =>
      seq(|a|, j requires 0 <= j < |a| => Sign(i + j) * Det(Minor(a, j, i))))
  }

  /** The dot product of two vectors of length 2. */
  lemma {:induction false} Dot2(u: seq<int>, v: seq<int>)
    requires |u| == |v| == 2
    ensures Dot(u, v) == u[0] * v[0] + u[1] * v[1]
  {
    assert Dot(u[1..], v[1..]) == u[1] * v[1] + Dot(u[2..], v[2..]);
  }

  /** A 1 x 1 matrix is its own determinant. */
  lemma {:induction false} Det1(x: int)
    ensures Det([[x]]) == x
  {
    var a := [[x]];
    assert Minor(a, 0, 0) == [];
    var terms := seq(1, j requires 0 <= j < 1 => Sign(j) * a[0][j] * Det(Minor(a, 0, j)));
    assert terms == [x];
    assert Sum(terms) == x + Sum([]);
  }

  /** Deleting a row and a column of a 2 x 2 matrix leaves the opposite entry. */
  lemma {:induction false} Minor2(a: Matrix, i: nat, j: nat)
    requires IsSquare(a, 2) && i < 2 && j < 2
    ensures Minor(a, i, j) == [[a[1 - i][1 - j]]]
  {
    var row := a[1 - i];
    assert |row| == 2;
    assert row[..j] + row[j + 1..] == [row[1 - j]];
  }

  /** The sum of two numbers. */
  lemma {:induction false} Sum2(s: seq<int>)
    requires |s| == 2
    ensures Sum(s) == s[0] + s[1]
  {
    assert s[1..][1..] == [];
    assert Sum(s[1..]) == s[1] + Sum(s[1..][1..]);
  }

  /** Cofactor expansion of a 2 x 2 matrix. */
  lemma {:induction false} Det2(a: Matrix)
    requires IsSquare(a, 2)
    ensures Det(a) == a[0][0] * a[1][1] - a[0][1] * a[1][0]
  {
    Minor2(a, 0, 0);
    Minor2(a, 0, 1);
    Det1(a[1][1]);
    Det1(a[1][0]);
    assert Sign(0) == 1 && Sign(1) == -1;
    var terms := seq(2, j requires 0 <= j < 2 => Sign(j) * a[0][j] * Det(Minor(a, 0, j)));
    assert terms[0] == a[0][0] * a[1][1];
    assert terms[1] == -1 * a[0][1] * a[1][0];
    Sum2(terms);
  }

  /** The adjugate of a 2 x 2 matrix swaps the diagonal and negates the rest. */
  lemma {:induction false} Adjugate2(a: Matrix)
    requires IsSquare(a, 2)
    ensures Adjugate(a) == [[a[1][1], -a[0][1]], [-a[1][0], a[0][0]]]
  {
    Minor2(a, 0, 0);
    Minor2(a, 0, 1);
    Minor2(a, 1, 0);
    Minor2(a, 1, 1);
    Det1(a[0][0]);
    Det1(a[0][1]);
    Det1(a[1][0]);
    Det1(a[1][1]);
    var b := Adjugate(a);
    assert b[0] == [a[1][1], -a[0][1]];
    assert b[1] == [-a[1][0], a[0][0]];
  }
}

=== FILE: mod_arith.dfy ===
/** Congruences modulo a positive integer, and the modular inverse computed by
    Python's three-argument `pow(a, -1, m)`. Dafny's `%` with a positive
    divisor is the same as Python's and numpy's: the remainder lies in `[0, m)`. */
module ModArith {
  import opened Results

  /** The remainder is fixed by any decomposition `y == k * m + r` with `0 <= r < m`. */
  lemma {:induction false} ModUnique(y: int, k: int, r: int, m: int)
    requires m > 0 && 0 <= r < m && y == k * m + r
    ensures y % m == r
  {
    var t := k - y / m;
    assert t * m == y % m - r;
  }

  /** Adding a multiple of `m` does not change the remainder. */
  lemma {:induction false} ModAddMul(x: int, q: int, m: int)
    requires m > 0
    ensures (x + q * m) % m == x % m
  {
    assert x == (x / m) * m + x % m;
    ModUnique(x + q * m, x / m + q, x % m, m);
  }

  /** A factor may be reduced before multiplying. */
  lemma {:induction false} ModMulRight(a: int, b: int, m: int)
    requires m > 0
    ensures (a * (b % m)) % m == (a * b) % m
  {
    assert b == (b / m) * m + b % m;
    assert a * b == a * (b % m) + (a * (b / m)) * m;
    ModAddMul(a * (b % m), a * (b / m), m);
  }

  /** Both factors may be replaced by congruent ones. */
  lemma {:induction false} ModMul(a: int, a': int, b: int, b': int, m: int)
    requires m > 0 && a % m == a' % m && b % m == b' % m
    ensures (a * b) % m == (a' * b') % m
  {
    ModMulRight(a, b, m);
    ModMulRight(a, b', m);
    ModMulRight(b', a, m);
    ModMulRight(b', a', m);
    assert a * b' == b' * a && b' * a' == a' * b';
  }

  /** Summands may be reduced before adding. */
  lemma {:induction false} ModAdd(a: int, b: int, m: int)
    requires m > 0
    ensures (a + b) % m == (a % m + b % m) % m
  {
    assert a == (a / m) * m + a % m;
    assert b == (b / m) * m + b % m;
    assert a + b == (a % m + b % m) + (a / m + b / m) * m;
    ModAddMul(a % m + b % m, a / m + b / m, m);
  }

  /** Reducing twice is reducing once. */
  lemma {:induction false} ModIdempotent(a: int, m: int)
    requires m > 0
    ensures (a % m) % m == a % m
  {
    ModUnique(a % m, 0, a % m, m);
  }

  /** `x` is the inverse of `a` modulo `m` that `pow(a, -1, m)` returns. */
  predicate IsModInverse(a: int, x: int, m: int)
    requires m > 0
  {
    0 <= x < m && (a * x) % m == 1 % m
  }

  /** `a` has an inverse modulo `m`. */
  predicate Invertible(a: int, m: int)
    requires m > 0
  {
    exists x :: 0 <= x < m && IsModInverse(a, x, m)
  }

  /** There is at most one inverse in `[0, m)`. */
  lemma {:induction false} InverseUnique(a: int, x: int, y: int, m: int)
    requires m > 0 && IsModInverse(a, x, m) && IsModInverse(a, y, m)
    ensures x == y
  {
    var p := a * y;
    var q := a * x;
    assert x * p == y * q;
    ModMulRight(x, p, m);
    ModMulRight(x, 1, m);
    assert x * (p % m) == x * (1 % m);
    ModUnique(x, 0, x, m);
    ModMulRight(y, q, m);
    ModMulRight(y, 1, m);
    assert y * (q % m) == y * (1 % m);
    ModUnique(y, 0, y, m);
  }

  /** The candidates `x, x + 1, ..., m - 1` in turn; `None` when none of them is an inverse. */
  function SearchInverse(a: int, m: int, x: nat): (r: Option<int>)
    requires m > 0 && x <= m
    ensures r.Some? ==> IsModInverse(a, r.value, m)
    ensures r.None? ==> forall y :: x <= y < m ==> !IsModInverse(a, y, m)
    decreases m - x
  {
    if x == m then None
    else if IsModInverse(a, x, m) then Some(x)
    else SearchInverse(a, m, x + 1)
  }

  /** `pow(a, -1, m)`: the inverse of `a` modulo `m`, or `None` where Python
      raises ValueError ("base is not invertible for the given modulus").
      By `InverseUnique` it does not matter how the inverse is found. */
  function ModInv(a: int, m: int): (r: Option<int>)
    requires m > 0
    ensures r.Some? ==> IsModInverse(a, r.value, m)
    ensures r.Some? <==> Invertible(a, m)
  {
    SearchInverse(a, m, 0)
  }

  /** `a * x == 1 + t * q` doubles into `a * x' == 1 - t * t * q * q` for one Newton step `x' == x * (2 - a * x)`. */
  lemma {:induction false} NewtonStep(a: int, x: int, t: int, q: int)
    requires a * x == 1 + t * q
    ensures a * (x * (2 - a * x)) == 1 - (t * t) * (q * q)
  {
    var y := a * x;
    assert a * (x * (2 - y)) == y * (2 - y);
    assert y * (2 - y) == (1 + t * q) * (1 - t * q);
  }

  /** The square of an odd number is 1 modulo 8: `a * a == 1 + t * 8`. */
  lemma {:induction false} OddSquare(a: int) returns (t: int)
    requires a % 2 == 1
    ensures a * a == 1 + t * 8
  {
    var h := a / 4;
    var c := a % 4;
    assert a == 4 * h + c;
    if c == 0 || c == 2 {
      ModUnique(a, 2 * h + c / 2, 0, 2);
      assert false;
    }
    if c == 1 {
      t := 2 * (h * h) + h;
      assert (4 * h + 1) * (4 * h + 1) == 16 * (h * h) + 8 * h + 1;
    } else {
      t := 2 * (h * h) + 3 * h + 1;
      assert (4 * h + 3) * (4 * h + 3) == 16 * (h * h) + 24 * h + 9;
    }
  }

  /** Two Newton steps from `a` give an inverse of an odd `a` modulo 256. */
  lemma {:induction false} OddInverse(a: int) returns (x: int)
    requires a % 2 == 1
    ensures IsModInverse(a, x, 256)
  {
    var t := OddSquare(a);
    var x1 := a * (2 - a * a);
    NewtonStep(a, a, t, 8);
    var v := t * t;
    assert a * x1 == 1 + (-v) * 64;
    var x2 := x1 * (2 - a * x1);
    NewtonStep(a, x1, -v, 64);
    var w := v * v;
    assert (-v) * (-v) == w;
    assert a * x2 == 1 + (-(16 * w)) * 256;
    ModAddMul(1, -(16 * w), 256);
    ModMulRight(a, x2, 256);
    x := x2 % 256;
  }

  /** An even number times anything is even, so never 1 modulo 256. */
  lemma {:induction false} EvenNotInvertible(a: int, x: int)
    requires a % 2 == 0
    ensures !IsModInverse(a, x, 256)
  {
    var k := a / 2;
    assert a == 2 * k;
    assert a * x == 2 * (k * x);
  }

  /** Modulo 256 exactly the odd numbers are invertible. */
  lemma {:induction false} Invertible256(a: int)
    ensures ModInv(a, 256).Some? <==> a % 2 == 1
  {
    if a % 2 == 1 {
      var x := OddInverse(a);
    } else {
      forall x | 0 <= x < 256 ensures !IsModInverse(a, x, 256) {
        EvenNotInvertible(a, x);
      }
    }
  }
}

=== FILE: playfair.dfy ===
/** The 5 x 6 alphanumeric Playfair cipher of `PlayFair.py`: a key-first grid
    over `A`-`Z` and `0`-`9`, plaintext normalised by upper-casing, `J` -> `I`
    and deleting spaces, a dict lookup of positions (the last match wins),
    column wrap modulo 6 and row wrap modulo 5, and a decryption that pads an
    odd ciphertext with `X`, deletes every `X` and strips trailing whitespace. */
module PlayFair {
  import opened Results
  import opened Seqs
  import opened Text
  import opened PlayfairGrid

  /** The symbols a grid may hold, in canonical order: the capitals `A`-`Z`
      followed by the digits `0`-`9`. */
  const Available: string := Run('A', 26) + Run('0', 10)

  const Rows: nat := 5
  const Cols: nat := 6

  /** The alphabet spelled out, as written in `generate_matrix`. */
  lemma {:induction false} AvailableLiteral()
    ensures Available == "ABCDEFGHIJKLMNOPQRSTUVWXYZ0123456789"
  {
  }

  lemma {:induction false} AvailableDistinct()
    ensures Distinct(Available)
    ensures |Available| == 36
  {
    DistinctAppend(Run('A', 26), Run('0', 10));
  }

  predicate InAvailable(c: char) {
    c in Available
  }

  /** Available symbols are upper-case ASCII letters and digits, so never whitespace. */
  lemma {:induction false} AvailableSymbols(c: char)
    requires c in Available
    ensures 'A' <= c <= 'Z' || '0' <= c <= '9'
    ensures !IsSpace(c)
  {
  }

  /** `"".join(sorted(set(key.upper()), key=key.index))`: the distinct symbols
      of the upper-cased key, ordered by where each first occurs in the ORIGINAL
      key. `key.index` raises ValueError for a symbol of `key.upper()` that is
      not in `key` itself, such as the upper case of a lower-case-only letter. */
  function SortedKey(key: string): (r: Result<string>)
    ensures r.Err? <==> exists i :: 0 <= i < |key| && UpperChar(key[i]) !in key
    ensures r.Err? ==> r.error == ValueError
    ensures r.Ok? ==> Distinct(r.value)
    ensures r.Ok? ==> forall c :: c in r.value <==> c in Upper(key)
    ensures r.Ok? ==> forall c :: c in r.value ==> c in key
    ensures r.Ok? ==> forall i, j :: 0 <= i < j < |r.value| ==> IndexOf(key, r.value[i]) < IndexOf(key, r.value[j])
  {
    if exists i :: 0 <= i < |key| && UpperChar(key[i]) !in key then Err(ValueError)
    else
      var upper := Upper(key);
      var k := KeepFirst(key, c => c in upper);
      KeepFirstOrder(key, c => c in upper);
      assert forall c :: c in upper ==> c in key by {
        forall c | c in upper ensures c in key {
          var i :| 0 <= i < |upper| && upper[i] == c;
          assert UpperChar(key[i]) == c;
        }
      }
      Ok(k)
  }

  /** The 36-symbol seed list: one pass over the key and then over `Available`,
      sharing one `used` set, appending each available symbol not used yet. */
  function Seed(k: string): (s: string)
    ensures Distinct(s)
    ensures forall c :: c in s <==> c in Available
    ensures |s| == |Available|
  {
    var s := KeepFirst(k + Available, InAvailable);
    AvailableDistinct();
    SameElementsSameLength(s, Available);
    s
  }

  /** The seed is the key's available symbols in first-occurrence order,
      followed by every other available symbol in canonical order. */
  lemma {:induction false} SeedOrder(k: string)
    ensures Seed(k) == KeepFirst(k, InAvailable) + Absent(Available, k, InAvailable)
  {
    AvailableDistinct();
    KeepFirstAppend(k, Available, InAvailable);
  }

  /** Lines 7-24 of `generate_matrix` after the key is sorted: the first 30
      seed symbols in 5 rows of 6 (`seed_matrix[i * 6 : (i + 1) * 6]`). */
  function BuildGrid(k: string): (m: Grid)
    ensures IsGrid(m, Rows, Cols) && DistinctGrid(m)
    ensures Flatten(m) == Seed(k)[..Rows * Cols]
    ensures forall c :: InGrid(m, c) <==> c in Seed(k)[..Rows * Cols]
  {
    var s := Seed(k);
    ReshapeDistinct(s, Rows, Cols);
    var m := Reshape(s, Rows, Cols);
    assert forall c :: InGrid(m, c) <==> c in s[..Rows * Cols] by {
      forall c ensures InGrid(m, c) <==> c in s[..Rows * Cols] {
        ReshapeSymbols(s, Rows, Cols, c);
      }
    }
    m
  }

  /** `generate_matrix(key)`: ValueError from the key sort, otherwise 5 rows
      of 6 distinct available symbols, the first 30 of the seed. */
  function GenerateMatrix(key: string): (r: Result<Grid>)
    ensures r.Err? <==> SortedKey(key).Err?
    ensures r.Err? ==> r.error == ValueError
    ensures r.Ok? ==> IsGrid(r.value, Rows, Cols) && DistinctGrid(r.value)
    ensures r.Ok? ==> Flatten(r.value) == Seed(SortedKey(key).value)[..Rows * Cols]
    ensures r.Ok? ==> forall c :: InGrid(r.value, c) ==> c in Available
  {
    var k :- SortedKey(key);
    Ok(BuildGrid(k))
  }

  /** Exactly the first 30 seed symbols are in a generated grid: the last six never reach it. */
  lemma {:induction false} GeneratedSymbols(key: string, c: char)
    requires GenerateMatrix(key).Ok?
    ensures InGrid(GenerateMatrix(key).value, c) <==> c in Seed(SortedKey(key).value)[..Rows * Cols]
  {
  }

  /** A key with a lower-case letter whose capital it lacks makes `key.index`
      fail: `"today".upper()` holds `T`, which `"today"` does not. */
  lemma {:induction false} LowerCaseKeyFails()
    ensures GenerateMatrix("today") == Err(ValueError)
  {
    assert UpperChar("today"[0]) == 'T';
    assert 'T' !in "today";
  }

  /** A lower-case letter is harmless when its capital also occurs in the key:
      a key such as `"aA"` sorts to its capital alone and builds a grid. */
  lemma {:induction false} MixedCaseKeyBuilds(c: char)
    requires 'a' <= c <= 'z'
    ensures SortedKey([c, UpperChar(c)]) == Ok([UpperChar(c)])
    ensures GenerateMatrix([c, UpperChar(c)]).Ok?
  {
    var u := UpperChar(c);
    var key := [c, u];
    assert UpperChar(key[0]) == u == key[1];
    assert UpperChar(key[1]) == u;
    assert !exists i :: 0 <= i < |key| && UpperChar(key[i]) !in key;
    var r := SortedKey(key).value;
    assert Upper(key) == [u, u];
    assert forall x :: x in r <==> x in [u];
    SameElementsSameLength(r, [u]);
    assert |r| == 1;
    assert r[0] in r;
    assert r == [u];
  }

  /** The key sort with the order taken from the upper-cased key
      (`key=key.upper().index`): the distinct symbols of `key.upper()` in
      first-occurrence order, defined for every key. */
  function SortedKeyCorrected(key: string): (r: string)
    ensures Distinct(r)
    ensures forall c :: c in r <==> c in Upper(key)
    ensures forall i, j :: 0 <= i < j < |r| ==> IndexOf(Upper(key), r[i]) < IndexOf(Upper(key), r[j])
  {
    var upper := Upper(key);
    KeepFirstOrder(upper, c => c in upper);
    KeepFirst(upper, c => c in upper)
  }

  /** On a key that `upper()` leaves alone, the corrected sort and the sort as written agree. */
  lemma {:induction false} SortedKeyCorrectedAgrees(key: string)
    requires Upper(key) == key
    ensures SortedKey(key) == Ok(SortedKeyCorrected(key))
  {
    assert forall i :: 0 <= i < |key| ==> UpperChar(key[i]) == Upper(key)[i] == key[i];
    KeepFirstSame(key, c => c in Upper(key), c => c in key);
  }

  /** `generate_matrix` with the corrected key sort: defined for every key. */
  function GenerateMatrixCorrected(key: string): (m: Grid)
    ensures IsGrid(m, Rows, Cols) && DistinctGrid(m)
    ensures Flatten(m) == Seed(SortedKeyCorrected(key))[..Rows * Cols]
    ensures forall c :: InGrid(m, c) ==> c in Available
  {
    BuildGrid(SortedKeyCorrected(key))
  }

  /** The plaintext as encryption sees it: `upper()`, `J` -> `I`, spaces deleted. */
  function Normalize(p: string): (r: string)
    ensures |r| <= |p|
    ensures 'J' !in r && ' ' !in r
    ensures forall c :: c in r ==> !('a' <= c <= 'z')
    ensures forall c :: c != ' ' && c != 'J' ==> (c in r <==> c in ReplaceChar(Upper(p), 'J', 'I'))
  {
    Remove(ReplaceChar(Upper(p), 'J', 'I'), ' ')
  }

  /** `encrypt_playfair(matrix, plaintext)`; KeyError when a symbol of a digraph is not in the grid. */
  function EncryptPlayfair(m: Grid, plaintext: string): (r: Result<string>)
    requires IsGrid(m, Rows, Cols)
    ensures r.Ok? <==> AllInGrid(m, Segment(Normalize(plaintext)))
    ensures r.Err? ==> r.error == KeyError
    ensures r.Ok? ==> |r.value| == 2 * |Segment(Normalize(plaintext))|
    ensures r.Ok? ==> forall i :: 0 <= i < |r.value| ==> InGrid(m, r.value[i])
  {
    var es := TransformAll(m, Rows, Cols, LastMatch, Segment(Normalize(plaintext)), Encrypt);
    if es.None? then Err(KeyError)
    else
      ConcatInGrid(m, es.value);
      Ok(Concat(es.value))
  }

  /** `decrypt_playfair(matrix, ciphertext)`; KeyError when a ciphertext symbol,
      or the `X` padding an odd ciphertext, is not in the grid. */
  function DecryptPlayfair(m: Grid, ciphertext: string): (r: Result<string>)
    requires IsGrid(m, Rows, Cols)
    ensures r.Ok? <==> (forall i :: 0 <= i < |ciphertext| ==> InGrid(m, ciphertext[i]))
                       && (|ciphertext| % 2 == 1 ==> InGrid(m, Filler))
    ensures r.Err? ==> r.error == KeyError
    ensures r.Ok? ==> Filler !in r.value
    ensures r.Ok? && |r.value| > 0 ==> !IsSpace(r.value[|r.value| - 1])
  {
    var ds := PadPairs(ciphertext);
    PadPairsInGrid(m, ciphertext);
    match TransformAll(m, Rows, Cols, LastMatch, ds, Decrypt)
    case None => Err(KeyError)
    case Some(ps) => Ok(RStrip(Remove(Concat(ps), Filler)))
  }

  /** Whole-text round trip on any 5 x 6 grid without repeats that holds `X`
      and every symbol of the normalised plaintext: decryption gives back the
      normalised plaintext with every `X` deleted and trailing whitespace stripped. */
  lemma {:induction false} RoundTrip(m: Grid, plaintext: string)
    requires IsGrid(m, Rows, Cols) && DistinctGrid(m) && InGrid(m, Filler)
    requires forall i :: 0 <= i < |Normalize(plaintext)| ==> InGrid(m, Normalize(plaintext)[i])
    ensures EncryptPlayfair(m, plaintext).Ok?
    ensures DecryptPlayfair(m, EncryptPlayfair(m, plaintext).value) == Ok(RStrip(Remove(Normalize(plaintext), Filler)))
  {
    var t := Normalize(plaintext);
    var ds := Segment(t);
    SegmentInGrid(t, m);
    AllRoundTrip(m, Rows, Cols, LastMatch, ds, Encrypt);
    var es := TransformAll(m, Rows, Cols, LastMatch, ds, Encrypt).value;
    ChunkConcat(es);
    SegmentKeepsText(t);
  }

  /** On a grid of available symbols holding `X` and every symbol of the
      normalised plaintext, decryption gives back exactly the normalised
      plaintext with every `X` deleted: available symbols are never whitespace. */
  lemma {:induction false} AvailableRoundTrip(m: Grid, plaintext: string)
    requires IsGrid(m, Rows, Cols) && DistinctGrid(m) && InGrid(m, Filler)
    requires forall c :: InGrid(m, c) ==> c in Available
    requires forall i :: 0 <= i < |Normalize(plaintext)| ==> InGrid(m, Normalize(plaintext)[i])
    ensures EncryptPlayfair(m, plaintext).Ok?
    ensures DecryptPlayfair(m, EncryptPlayfair(m, plaintext).value) == Ok(Remove(Normalize(plaintext), Filler))
  {
    var t := Normalize(plaintext);
    var s := Remove(t, Filler);
    assert RStrip(s) == s by {
      forall i | 0 <= i < |s| ensures !IsSpace(s[i]) {
        assert s[i] in s && s[i] != Filler;
        assert s[i] in t;
        var k :| 0 <= k < |t| && t[k] == s[i];
        AvailableSymbols(s[i]);
      }
      RStripNoSpace(s);
    }
    RoundTrip(m, plaintext);
  }

  /** Round trip on a generated grid. */
  lemma {:induction false} GeneratedRoundTrip(key: string, plaintext: string)
    requires GenerateMatrix(key).Ok?
    requires InGrid(GenerateMatrix(key).value, Filler)
    requires forall i :: 0 <= i < |Normalize(plaintext)| ==> InGrid(GenerateMatrix(key).value, Normalize(plaintext)[i])
    ensures EncryptPlayfair(GenerateMatrix(key).value, plaintext).Ok?
    ensures var m := GenerateMatrix(key).value;
            DecryptPlayfair(m, EncryptPlayfair(m, plaintext).value) == Ok(Remove(Normalize(plaintext), Filler))
  {
    AvailableRoundTrip(GenerateMatrix(key).value, plaintext);
  }

  /** Round trip on a grid generated with the corrected key sort. */
  lemma {:induction false} CorrectedRoundTrip(key: string, plaintext: string)
    requires InGrid(GenerateMatrixCorrected(key), Filler)
    requires forall i :: 0 <= i < |Normalize(plaintext)| ==> InGrid(GenerateMatrixCorrected(key), Normalize(plaintext)[i])
    ensures EncryptPlayfair(GenerateMatrixCorrected(key), plaintext).Ok?
    ensures var m := GenerateMatrixCorrected(key);
            DecryptPlayfair(m, EncryptPlayfair(m, plaintext).value) == Ok(Remove(Normalize(plaintext), Filler))
  {
    AvailableRoundTrip(GenerateMatrixCorrected(key), plaintext);
  }

  /** The plaintext of the script's demonstration is cut into `AT TA CK TO NI GH TX`. */
  lemma {:induction false} DemoSegmentation()
    ensures Segment("ATTACKTONIGHT") == [Digraph('A', 'T'), Digraph('T', 'A'), Digraph('C', 'K'),
      Digraph('T', 'O'), Digraph('N', 'I'), Digraph('G', 'H'), Digraph('T', 'X')]
  {
    var ds := [Digraph('A', 'T'), Digraph('T', 'A'), Digraph('C', 'K'),
      Digraph('T', 'O'), Digraph('N', 'I'), Digraph('G', 'H')];
    assert Concat(ds) == "ATTACKTONIGH";
    assert "ATTACKTONIGH" + "T" == "ATTACKTONIGHT";
    SegmentPairs(ds, "T");
    SegmentSingle('T', "");
  }

  /** A doubled letter is split by the filler: `BALLOON` gives `BA LX LO ON`. */
  lemma {:induction false} RepeatedLetterExample()
    ensures Segment("BALLOON") == [Digraph('B', 'A'), Digraph('L', 'X'), Digraph('L', 'O'), Digraph('O', 'N')]
  {
    assert Segment("") == [];
    SegmentPair('O', 'N', "");
    SegmentPair('L', 'O', "ON");
    SegmentSingle('L', "LOON");
    SegmentPair('B', 'A', "LLOON");
  }

}

=== FILE: playfair_grid.dfy ===
/** What the two Playfair scripts share: a grid of symbols, the lookup of a
    symbol's position, the row/column/rectangle substitution rule on one
    digraph, and the left-to-right segmentation of a text into digraphs. */
module PlayfairGrid {
  import opened Results
  import opened Seqs
  import opened Text

  /** A symbol grid, as a list of rows. */
  type Grid = seq<seq<char>>

  /** A (row, column) coordinate in a grid. */
  datatype Pos = Pos(row: nat, col: nat)

  /** Two symbols substituted together. */
  datatype Digraph = Digraph(first: char, second: char)

  /** The two positions of a digraph. */
  datatype PosPair = PosPair(a: Pos, b: Pos)

  datatype Direction = Encrypt | Decrypt

  /** Which match a lookup reports when a symbol occurs more than once:
      `np.where(...)[0]` reports the first in row-major order, while a dict
      built row by row keeps the last one written. */
  datatype Occurrence = FirstMatch | LastMatch

  /** The symbol inserted by segmentation and padded onto odd ciphertexts. */
  const Filler: char := 'X'

  predicate IsGrid(m: Grid, rows: nat, cols: nat) {
    |m| == rows && forall r :: 0 <= r < rows ==> |m[r]| == cols
  }

  predicate ValidPos(m: Grid, p: Pos) {
    p.row < |m| && p.col < |m[p.row]|
  }

  predicate InGrid(m: Grid, c: char) {
    exists r :: 0 <= r < |m| && c in m[r]
  }

  /** The grid holds both symbols of every digraph. */
  predicate AllInGrid(m: Grid, ds: seq<Digraph>) {
    forall i :: 0 <= i < |ds| ==> InGrid(m, ds[i].first) && InGrid(m, ds[i].second)
  }

  /** No symbol occupies two cells. */
  ghost predicate DistinctGrid(m: Grid) {
    forall p, q :: ValidPos(m, p) && ValidPos(m, q) && m[p.row][p.col] == m[q.row][q.col] ==> p == q
  }

  /** The rows of a grid joined in order: its row-major list of symbols. */
  function Flatten(m: Grid): string {
    if |m| == 0 then [] else m[0] + Flatten(m[1..])
  }

  /** A symbol is in the grid exactly when it is in its row-major list. */
  lemma {:induction false} FlattenSymbols(m: Grid, c: char)
    ensures InGrid(m, c) <==> c in Flatten(m)
    decreases |m|
  {
    if |m| > 0 {
      FlattenSymbols(m[1..], c);
      assert Flatten(m) == m[0] + Flatten(m[1..]);
      if InGrid(m, c) && c !in m[0] {
        var r :| 0 <= r < |m| && c in m[r];
        assert c in m[1..][r - 1];
      }
      if InGrid(m[1..], c) {
        var r :| 0 <= r < |m[1..]| && c in m[1..][r];
        assert c in m[r + 1];
      }
    }
  }

  /** A grid whose row-major list has no repeats has no repeated symbol. */
  lemma {:induction false} FlattenDistinct(m: Grid)
    requires Distinct(Flatten(m))
    ensures DistinctGrid(m)
    decreases |m|
  {
    if |m| > 0 {
      var rest := m[1..];
      var f := Flatten(m);
      assert f == m[0] + Flatten(rest);
      assert Distinct(Flatten(rest)) by {
        forall i, j | 0 <= i < j < |Flatten(rest)| ensures Flatten(rest)[i] != Flatten(rest)[j] {
          assert f[|m[0]| + i] == Flatten(rest)[i] && f[|m[0]| + j] == Flatten(rest)[j];
        }
      }
      FlattenDistinct(rest);
      forall p, q | ValidPos(m, p) && ValidPos(m, q) && m[p.row][p.col] == m[q.row][q.col]
        ensures p == q
      {
        if p.row == 0 && q.row == 0 {
          assert f[p.col] == m[0][p.col] && f[q.col] == m[0][q.col];
        } else if p.row > 0 && q.row > 0 {
          assert ValidPos(rest, Pos(p.row - 1, p.col)) && ValidPos(rest, Pos(q.row - 1, q.col));
        } else {
          var x := if p.row == 0 then p else q;
          var y := if p.row == 0 then q else p;
          var c := m[y.row][y.col];
          assert c in rest[y.row - 1];
          assert InGrid(rest, c);
          FlattenSymbols(rest, c);
          var k :| 0 <= k < |Flatten(rest)| && Flatten(rest)[k] == c;
          DistinctParts(m[0], Flatten(rest), x.col, k);
        }
      }
    }
  }

  /** `np.array(s).reshape(rows, cols)`, or the row slices `s[i*cols:(i+1)*cols]`:
      the first `rows * cols` symbols of `s`, `cols` to a row. */
  function Reshape(s: string, rows: nat, cols: nat): (m: Grid)
    requires |s| >= rows * cols
    ensures IsGrid(m, rows, cols)
    ensures Flatten(m) == s[..rows * cols]
    decreases rows
  {
    if rows == 0 then []
    else
      assert rows * cols == cols + (rows - 1) * cols;
      var rest := Reshape(s[cols..], rows - 1, cols);
      assert s[..rows * cols] == s[..cols] + s[cols..][..(rows - 1) * cols];
      assert ([s[..cols]] + rest)[1..] == rest;
      [s[..cols]] + rest
  }

  /** The two parts of a list without repeats share no symbol. */
  lemma {:induction false} DistinctParts(a: string, b: string, i: nat, j: nat)
    requires Distinct(a + b) && i < |a| && j < |b|
    ensures a[i] != b[j]
  {
    assert (a + b)[i] == a[i] && (a + b)[|a| + j] == b[j];
  }

  /** A grid cut from a list without repeats has no repeats. */
  lemma {:induction false} ReshapeDistinct(s: string, rows: nat, cols: nat)
    requires |s| >= rows * cols && Distinct(s)
    ensures DistinctGrid(Reshape(s, rows, cols))
  {
    assert Distinct(s[..rows * cols]) by {
      forall i, j | 0 <= i < j < rows * cols ensures s[..rows * cols][i] != s[..rows * cols][j] {
        assert s[..rows * cols][i] == s[i] && s[..rows * cols][j] == s[j];
      }
    }
    FlattenDistinct(Reshape(s, rows, cols));
  }

  /** A reshaped grid holds exactly the first `rows * cols` symbols of its list. */
  lemma {:induction false} ReshapeSymbols(s: string, rows: nat, cols: nat, c: char)
    requires |s| >= rows * cols
    ensures InGrid(Reshape(s, rows, cols), c) <==> c in s[..rows * cols]
  {
    FlattenSymbols(Reshape(s, rows, cols), c);
  }

  /** `p` is not after `q` in row-major order. */
  predicate NotAfter(p: Pos, q: Pos) {
    p.row < q.row || (p.row == q.row && p.col <= q.col)
  }

  /** The first cell holding `c` in row-major order, as `np.where(matrix == c)`
      read at index 0; `None` where that indexing raises. */
  function FindFirst(m: Grid, c: char): (p: Option<Pos>)
    ensures p.Some? ==> ValidPos(m, p.value) && m[p.value.row][p.value.col] == c
    ensures p.Some? ==> forall q :: ValidPos(m, q) && m[q.row][q.col] == c ==> NotAfter(p.value, q)
    ensures p.None? <==> !InGrid(m, c)
    decreases |m|
  {
    if |m| == 0 then None
    else if c in m[0] then Some(Pos(0, IndexOf(m[0], c)))
    else
      match FindFirst(m[1..], c)
      case None => None
      case Some(p) =>
        assert forall q :: ValidPos(m, q) && m[q.row][q.col] == c ==> q.row > 0 && ValidPos(m[1..], Pos(q.row - 1, q.col));
        Some(Pos(p.row + 1, p.col))
  }

  /** The last cell holding `c` in row-major order: the entry a dict
      comprehension over rows and columns keeps for key `c`, since later
      writes overwrite earlier ones; `None` where the dict lookup raises. */
  function FindLast(m: Grid, c: char): (p: Option<Pos>)
    ensures p.Some? ==> ValidPos(m, p.value) && m[p.value.row][p.value.col] == c
    ensures p.Some? ==> forall q :: ValidPos(m, q) && m[q.row][q.col] == c ==> NotAfter(q, p.value)
    ensures p.None? <==> !InGrid(m, c)
    decreases |m|
  {
    if |m| == 0 then None
    else
      var last := |m| - 1;
      if c in m[last] then Some(Pos(last, LastIndexOf(m[last], c)))
      else
        assert forall q :: ValidPos(m, q) && m[q.row][q.col] == c ==> ValidPos(m[..last], q);
        FindLast(m[..last], c)
  }

  function Find(m: Grid, c: char, occ: Occurrence): Option<Pos> {
    if occ == FirstMatch then FindFirst(m, c) else FindLast(m, c)
  }

  /** In a grid without repeats both lookups report the one cell holding the symbol. */
  lemma {:induction false} FindDistinct(m: Grid, p: Pos, occ: Occurrence)
    requires DistinctGrid(m) && ValidPos(m, p)
    ensures Find(m, m[p.row][p.col], occ) == Some(p)
  {
    var c := m[p.row][p.col];
    assert InGrid(m, c) by { assert c in m[p.row]; }
  }

  /** One step along a row or column with wrap-around: `(i + 1) % n` to
      encrypt and `(i - 1) % n` to decrypt. Python's `%` takes the sign of
      the (positive) divisor, so it agrees with Dafny's `%` here. */
  function Step(i: nat, n: nat, dir: Direction): (j: nat)
    requires n > 0
    ensures j < n
  {
    if dir == Encrypt then (i + 1) % n else (i - 1) % n
  }

  /** Stepping wraps around: past the last index comes 0, before 0 comes the last index. */
  lemma {:induction false} StepWraps(i: nat, n: nat, dir: Direction)
    requires i < n
    ensures dir == Encrypt ==> Step(i, n, dir) == (if i + 1 == n then 0 else i + 1)
    ensures dir == Decrypt ==> Step(i, n, dir) == (if i == 0 then n - 1 else i - 1)
  {
    if dir == Encrypt {
      if i + 1 == n { ModSelf(n); } else { ModSmall(i + 1, n); }
    } else {
      if i == 0 { ModMinusOne(n); } else { ModSmall(i - 1, n); }
    }
  }

  lemma {:induction false} ModSmall(x: int, n: int)
    requires 0 <= x < n
    ensures x % n == x
  {
  }

  lemma {:induction false} ModSelf(n: int)
    requires n > 0
    ensures n % n == 0
  {
  }

  lemma {:induction false} ModMinusOne(n: int)
    requires n > 0
    ensures (-1) % n == n - 1
  {
  }

  /** Stepping one way and then the other returns to the start. */
  lemma {:induction false} StepInverse(i: nat, n: nat, dir: Direction)
    requires i < n
    ensures Step(Step(i, n, dir), n, Reverse(dir)) == i
  {
    StepWraps(i, n, dir);
    StepWraps(Step(i, n, dir), n, Reverse(dir));
  }

  /** Stepping changes an index only by wrap-around, so different indices stay different. */
  lemma {:induction false} StepInjective(i: nat, j: nat, n: nat, dir: Direction)
    requires i < n && j < n && i != j
    ensures Step(i, n, dir) != Step(j, n, dir)
  {
    StepWraps(i, n, dir);
    StepWraps(j, n, dir);
  }

  /** The Playfair rule on positions in a `rows` x `cols` grid: same row, both
      move one column; else same column, both move one row; else each takes
      the other's column. */
  function Rule(rows: nat, cols: nat, a: Pos, b: Pos, dir: Direction): (r: PosPair)
    requires rows > 0 && cols > 0
    requires a.row < rows && a.col < cols && b.row < rows && b.col < cols
    ensures r.a.row < rows && r.a.col < cols && r.b.row < rows && r.b.col < cols
  {
    if a.row == b.row then PosPair(Pos(a.row, Step(a.col, cols, dir)), Pos(b.row, Step(b.col, cols, dir)))
    else if a.col == b.col then PosPair(Pos(Step(a.row, rows, dir), a.col), Pos(Step(b.row, rows, dir), b.col))
    else PosPair(Pos(a.row, b.col), Pos(b.row, a.col))
  }

  function Reverse(dir: Direction): Direction {
    if dir == Encrypt then Decrypt else Encrypt
  }

  /** The rule run in one direction is undone by the rule run in the other,
      on every pair of positions, the equal pair (a doubled filler) included. */
  lemma {:induction false} RuleInverse(rows: nat, cols: nat, a: Pos, b: Pos, dir: Direction)
    requires rows > 0 && cols > 0
    requires a.row < rows && a.col < cols && b.row < rows && b.col < cols
    ensures var e := Rule(rows, cols, a, b, dir);
            Rule(rows, cols, e.a, e.b, Reverse(dir)) == PosPair(a, b)
  {
    var e := Rule(rows, cols, a, b, dir);
    if a.row == b.row {
      StepInverse(a.col, cols, dir);
      StepInverse(b.col, cols, dir);
    } else if a.col == b.col {
      StepInjective(a.row, b.row, rows, dir);
      StepInverse(a.row, rows, dir);
      StepInverse(b.row, rows, dir);
    }
  }

  /** Look both symbols up and apply the rule; `None` when a symbol is not in the grid. */
  function TransformPair(m: Grid, rows: nat, cols: nat, occ: Occurrence, d: Digraph, dir: Direction): (r: Option<Digraph>)
    requires rows > 0 && cols > 0 && IsGrid(m, rows, cols)
    ensures r.Some? <==> InGrid(m, d.first) && InGrid(m, d.second)
    ensures r.Some? ==> InGrid(m, r.value.first) && InGrid(m, r.value.second)
  {
    match (Find(m, d.first, occ), Find(m, d.second, occ))
    case (Some(a), Some(b)) =>
      var e := Rule(rows, cols, a, b, dir);
      assert m[e.a.row][e.a.col] in m[e.a.row] && m[e.b.row][e.b.col] in m[e.b.row];
      Some(Digraph(m[e.a.row][e.a.col], m[e.b.row][e.b.col]))
    case _ => None
  }

  /** Per-digraph round trip: in a grid without repeats, decrypting an
      encrypted digraph gives it back, and so does encrypting a decrypted one. */
  lemma {:induction false} PairRoundTrip(m: Grid, rows: nat, cols: nat, occ: Occurrence, d: Digraph, dir: Direction)
    requires rows > 0 && cols > 0 && IsGrid(m, rows, cols) && DistinctGrid(m)
    requires InGrid(m, d.first) && InGrid(m, d.second)
    ensures var e := TransformPair(m, rows, cols, occ, d, dir);
            e.Some? && TransformPair(m, rows, cols, occ, e.value, Reverse(dir)) == Some(d)
  {
    var a := Find(m, d.first, occ).value;
    var b := Find(m, d.second, occ).value;
    var e := Rule(rows, cols, a, b, dir);
    RuleInverse(rows, cols, a, b, dir);
    FindDistinct(m, e.a, occ);
    FindDistinct(m, e.b, occ);
  }

  /** Transform every digraph in order; `None` as soon as one lookup fails. */
  function TransformAll(m: Grid, rows: nat, cols: nat, occ: Occurrence, ds: seq<Digraph>, dir: Direction): (r: Option<seq<Digraph>>)
    requires rows > 0 && cols > 0 && IsGrid(m, rows, cols)
    ensures r.Some? <==> AllInGrid(m, ds)
    ensures r.Some? ==> |r.value| == |ds| && AllInGrid(m, r.value)
    decreases |ds|
  {
    if |ds| == 0 then Some([])
    else
      var e := TransformPair(m, rows, cols, occ, ds[0], dir);
      var es := TransformAll(m, rows, cols, occ, ds[1..], dir);
      assert forall i :: 1 <= i < |ds| ==> ds[i] == ds[1..][i - 1];
      if e.Some? && es.Some? then Some([e.value] + es.value) else None
  }

  /** Whole-sequence round trip: transforming every digraph one way and then
      the other gives the digraphs back. */
  lemma {:induction false} AllRoundTrip(m: Grid, rows: nat, cols: nat, occ: Occurrence, ds: seq<Digraph>, dir: Direction)
    requires rows > 0 && cols > 0 && IsGrid(m, rows, cols) && DistinctGrid(m)
    requires AllInGrid(m, ds)
    ensures var es := TransformAll(m, rows, cols, occ, ds, dir);
            es.Some? && TransformAll(m, rows, cols, occ, es.value, Reverse(dir)) == Some(ds)
    decreases |ds|
  {
    if |ds| > 0 {
      var e := TransformPair(m, rows, cols, occ, ds[0], dir);
      assert e.Some? && TransformPair(m, rows, cols, occ, e.value, Reverse(dir)) == Some(ds[0]) by {
        PairRoundTrip(m, rows, cols, occ, ds[0], dir);
      }
      var es := TransformAll(m, rows, cols, occ, ds[1..], dir);
      assert es.Some? && TransformAll(m, rows, cols, occ, es.value, Reverse(dir)) == Some(ds[1..]) by {
        assert forall i :: 0 <= i < |ds[1..]| ==> ds[1..][i] == ds[i + 1];
        AllRoundTrip(m, rows, cols, occ, ds[1..], dir);
      }
      TransformAllCons(m, rows, cols, occ, ds[0], ds[1..], dir);
      assert [ds[0]] + ds[1..] == ds;
      TransformAllCons(m, rows, cols, occ, e.value, es.value, Reverse(dir));
    }
  }

  /** Transforming a digraph followed by a sequence transforms each part. */
  lemma {:induction false} TransformAllCons(m: Grid, rows: nat, cols: nat, occ: Occurrence, d: Digraph, ds: seq<Digraph>, dir: Direction)
    requires rows > 0 && cols > 0 && IsGrid(m, rows, cols)
    ensures var e := TransformPair(m, rows, cols, occ, d, dir);
            var es := TransformAll(m, rows, cols, occ, ds, dir);
            TransformAll(m, rows, cols, occ, [d] + ds, dir) == if e.Some? && es.Some? then Some([e.value] + es.value) else None
  {
    assert ([d] + ds)[0] == d;
    assert ([d] + ds)[1..] == ds;
  }

  /** The symbols of the digraphs joined in order (`''.join(...)`). */
  function Concat(ds: seq<Digraph>): (s: string)
    ensures |s| == 2 * |ds|
    ensures forall i :: 0 <= i < |ds| ==> s[2 * i] == ds[i].first && s[2 * i + 1] == ds[i].second
  {
    if |ds| == 0 then [] else [ds[0].first, ds[0].second] + Concat(ds[1..])
  }

  /** Each symbol of the joined digraphs is the first or second symbol of some digraph. */
  lemma {:induction false} ConcatSymbols(ds: seq<Digraph>, i: nat)
    requires i < |Concat(ds)|
    ensures Concat(ds)[i] == if i % 2 == 0 then ds[i / 2].first else ds[i / 2].second
  {
  }

  /** When the grid holds every symbol of the digraphs, it holds every symbol of their join. */
  lemma {:induction false} ConcatInGrid(m: Grid, ds: seq<Digraph>)
    requires AllInGrid(m, ds)
    ensures forall i :: 0 <= i < |Concat(ds)| ==> InGrid(m, Concat(ds)[i])
  {
    forall i | 0 <= i < |Concat(ds)| ensures InGrid(m, Concat(ds)[i]) {
      ConcatSymbols(ds, i);
    }
  }

  /** Segmentation of a normalised plaintext, scanning left to right: two
      adjacent different symbols form a digraph and the scan moves on by two;
      a symbol followed by an equal one, or by nothing, is paired with the
      filler and the scan moves on by one. */
  function Segment(t: string): (ds: seq<Digraph>)
    ensures |ds| <= |t| <= 2 * |ds|
    ensures forall i :: 0 <= i < |ds| ==> ds[i].first != ds[i].second || ds[i].first == Filler
    decreases |t|
  {
    if |t| == 0 then []
    else if |t| >= 2 && t[0] != t[1] then [Digraph(t[0], t[1])] + Segment(t[2..])
    else [Digraph(t[0], Filler)] + Segment(t[1..])
  }

  /** One step of the scan over two different leading symbols. */
  lemma {:induction false} SegmentPair(a: char, b: char, rest: string)
    requires a != b
    ensures Segment([a, b] + rest) == [Digraph(a, b)] + Segment(rest)
  {
    assert ([a, b] + rest)[2..] == rest;
  }

  /** One step of the scan over a symbol followed by an equal one or by nothing. */
  lemma {:induction false} SegmentSingle(a: char, rest: string)
    requires |rest| == 0 || rest[0] == a
    ensures Segment([a] + rest) == [Digraph(a, Filler)] + Segment(rest)
  {
    assert ([a] + rest)[1..] == rest;
  }

  /** A text made of pairs of different symbols is cut into exactly those pairs. */
  lemma {:induction false} SegmentPairs(ds: seq<Digraph>, rest: string)
    requires forall i :: 0 <= i < |ds| ==> ds[i].first != ds[i].second
    ensures Segment(Concat(ds) + rest) == ds + Segment(rest)
    decreases |ds|
  {
    if |ds| > 0 {
      var d := ds[0];
      var tail := Concat(ds[1..]) + rest;
      assert ds == [d] + ds[1..];
      ConcatCons(d, ds[1..]);
      assert Concat(ds) + rest == [d.first, d.second] + tail;
      SegmentPair(d.first, d.second, tail);
      SegmentPairs(ds[1..], rest);
    } else {
      assert Concat(ds) + rest == rest;
    }
  }

  /** Segmentation only inserts fillers: with every filler deleted, the joined
      digraphs are the text with every filler deleted. */
  lemma {:induction false} SegmentKeepsText(t: string)
    ensures Remove(Concat(Segment(t)), Filler) == Remove(t, Filler)
    decreases |t|
  {
    if |t| >= 2 && t[0] != t[1] {
      var rest := t[2..];
      var head := [t[0], t[1]];
      assert t == head + rest;
      SegmentPair(t[0], t[1], rest);
      ConcatCons(Digraph(t[0], t[1]), Segment(rest));
      SegmentKeepsText(rest);
      RemovePrefix(head, Concat(Segment(rest)), rest, Filler);
    } else if |t| > 0 {
      var rest := t[1..];
      var u := Concat(Segment(rest));
      assert t == [t[0]] + rest;
      SegmentSingle(t[0], rest);
      ConcatCons(Digraph(t[0], Filler), Segment(rest));
      assert [t[0], Filler] + u == [t[0]] + ([Filler] + u);
      SegmentKeepsText(rest);
      RemovePrefix([], u, rest, Filler);
      RemovePrefix([t[0]], [Filler] + u, rest, Filler);
    }
  }

  /** Joining a digraph list starts with the first digraph's two symbols. */
  lemma {:induction false} ConcatCons(d: Digraph, ds: seq<Digraph>)
    ensures Concat([d] + ds) == [d.first, d.second] + Concat(ds)
  {
    assert ([d] + ds)[1..] == ds;
  }

  /** Every symbol of the segmented text is a symbol of the text or the filler. */
  lemma {:induction false} SegmentSymbols(t: string)
    ensures forall i :: 0 <= i < |Segment(t)| ==> Segment(t)[i].first in t
    ensures forall i :: 0 <= i < |Segment(t)| ==> Segment(t)[i].second in t || Segment(t)[i].second == Filler
    decreases |t|
  {
    if |t| > 0 {
      var ds := Segment(t);
      var k := if |t| >= 2 && t[0] != t[1] then 2 else 1;
      assert ds[1..] == Segment(t[k..]);
      SegmentSymbols(t[k..]);
      forall i | 1 <= i < |ds|
        ensures ds[i].first in t && (ds[i].second in t || ds[i].second == Filler)
      {
        assert ds[i] == ds[1..][i - 1];
        assert forall c :: c in t[k..] ==> c in t;
      }
    }
  }

  /** When the grid holds the filler and every symbol of the text, it holds every symbol of its digraphs. */
  lemma {:induction false} SegmentInGrid(t: string, m: Grid)
    requires InGrid(m, Filler)
    requires forall i :: 0 <= i < |t| ==> InGrid(m, t[i])
    ensures AllInGrid(m, Segment(t))
  {
    SegmentSymbols(t);
  }

  /** Chunk a ciphertext two symbols at a time, padding an odd last symbol with the filler. */
  function PadPairs(s: string): (ds: seq<Digraph>)
    ensures |ds| == (|s| + 1) / 2
    ensures forall i :: 0 <= i < |ds| ==> ds[i].first == s[2 * i]
    ensures forall i :: 0 <= i < |ds| ==> ds[i].second == (if 2 * i + 1 < |s| then s[2 * i + 1] else Filler)
    decreases |s|
  {
    if |s| == 0 then []
    else if |s| == 1 then [Digraph(s[0], Filler)]
    else [Digraph(s[0], s[1])] + PadPairs(s[2..])
  }

  /** Chunk a ciphertext two symbols at a time; `None` when the length is odd,
      where reading the second symbol of the last chunk raises. */
  function ExactPairs(s: string): (ds: Option<seq<Digraph>>)
    ensures ds.Some? <==> |s| % 2 == 0
    ensures ds.Some? ==> |ds.value| == |s| / 2
    ensures ds.Some? ==> forall i :: 0 <= i < |ds.value| ==> ds.value[i] == Digraph(s[2 * i], s[2 * i + 1])
    decreases |s|
  {
    if |s| == 0 then Some([])
    else if |s| == 1 then None
    else
      match ExactPairs(s[2..])
      case None => None
      case Some(rest) => Some([Digraph(s[0], s[1])] + rest)
  }

  /** Every padded chunk can be looked up exactly when every ciphertext
      symbol can, and so can the filler when the length is odd. */
  lemma {:induction false} PadPairsInGrid(m: Grid, s: string)
    ensures AllInGrid(m, PadPairs(s))
        <==> (forall i :: 0 <= i < |s| ==> InGrid(m, s[i])) && (|s| % 2 == 1 ==> InGrid(m, Filler))
  {
    var ds := PadPairs(s);
    if AllInGrid(m, ds) {
      forall i | 0 <= i < |s| ensures InGrid(m, s[i]) {
        var k := i / 2;
        assert i == 2 * k || i == 2 * k + 1;
        if i == 2 * k {
          assert ds[k].first == s[i];
        } else {
          assert ds[k].second == s[i];
        }
      }
      if |s| % 2 == 1 {
        var k := |s| / 2;
        assert |s| == 2 * k + 1;
        assert ds[k].second == Filler;
      }
    }
    if (forall i :: 0 <= i < |s| ==> InGrid(m, s[i])) && (|s| % 2 == 1 ==> InGrid(m, Filler)) {
      forall k | 0 <= k < |ds| ensures InGrid(m, ds[k].first) && InGrid(m, ds[k].second) {
        assert 2 * k < |s|;
        if 2 * k + 1 == |s| {
          assert |s| % 2 == 1;
        }
      }
    }
  }

  /** Every exact chunk can be looked up exactly when every ciphertext symbol can. */
  lemma {:induction false} ExactPairsInGrid(m: Grid, s: string)
    requires |s| % 2 == 0
    ensures AllInGrid(m, ExactPairs(s).value) <==> forall i :: 0 <= i < |s| ==> InGrid(m, s[i])
  {
    var ds := ExactPairs(s).value;
    if AllInGrid(m, ds) {
      forall i | 0 <= i < |s| ensures InGrid(m, s[i]) {
        var k := i / 2;
        assert i == 2 * k || i == 2 * k + 1;
        assert ds[k] == Digraph(s[2 * k], s[2 * k + 1]);
      }
    }
  }

  /** Chunking a joined sequence of digraphs gives the digraphs back, with or without padding. */
  lemma {:induction false} ChunkConcat(ds: seq<Digraph>)
    ensures PadPairs(Concat(ds)) == ds
    ensures ExactPairs(Concat(ds)) == Some(ds)
  {
    var s := Concat(ds);
    assert |s| % 2 == 0 && |s| / 2 == |ds| && (|s| + 1) / 2 == |ds|;
    assert |PadPairs(s)| == |ds|;
    assert |ExactPairs(s).value| == |ds|;
    assert forall i :: 0 <= i < |ds| ==> PadPairs(s)[i] == ds[i];
    forall i | 0 <= i < |ds| ensures ExactPairs(s).value[i] == ds[i] {
      assert ExactPairs(s).value[i] == Digraph(ds[i].first, ds[i].second);
    }
    assert ExactPairs(s).value == ds;
  }
}

=== FILE: playfair_image.dfy ===
/** The 5 x 5 letter Playfair cipher of `PlayFairImage.py`: a key-first grid
    over the 25 upper-case letters other than `J`, text normalised by
    upper-casing and `J` -> `I` (spaces are kept, and have no position),
    positions found by `np.where` (the first match in row-major order), wrap
    modulo 5 both ways, and a decryption that reads the ciphertext two
    symbols at a time and deletes every `X`. Every failed lookup, and the
    missing second symbol of an odd ciphertext, raises IndexError. */
module PlayFairImage {
  import opened Results
  import opened Seqs
  import opened Text
  import opened PlayfairGrid

  /** `string.ascii_uppercase`: the capitals `A`-`Z`. */
  const Letters: string := Run('A', 26)

  /** The 25 symbols of a 5 x 5 grid, in canonical order: `A`-`I`, then `K`-`Z`. */
  const MatrixLetters: string := Run('A', 9) + Run('K', 16)

  const Size: nat := 5

  /** A symbol the grid may hold: an upper-case ASCII letter other than `J`. */
  predicate IsMatrixLetter(c: char) {
    c in Letters && c != 'J'
  }

  /** The alphabets spelled out. */
  lemma {:induction false} LettersLiteral()
    ensures Letters == "ABCDEFGHIJKLMNOPQRSTUVWXYZ"
    ensures MatrixLetters == "ABCDEFGHIKLMNOPQRSTUVWXYZ"
  {
  }

  lemma {:induction false} MatrixLettersFacts()
    ensures Distinct(Letters) && Distinct(MatrixLetters)
    ensures |MatrixLetters| == Size * Size
    ensures forall c :: c in MatrixLetters <==> IsMatrixLetter(c)
  {
    DistinctAppend(Run('A', 9), Run('K', 16));
  }

  /** Letters are upper-case ASCII, so `str.upper` keeps them. */
  lemma {:induction false} LetterUpper(c: char)
    requires c in Letters
    ensures 'A' <= c <= 'Z' && UpperChar(c) == c
  {
  }

  /** `text.upper().replace('J', 'I')`, the normalisation of keys and plaintexts. */
  function Prepare(text: string): (r: string)
    ensures |r| == |text|
    ensures 'J' !in r
  {
    ReplaceChar(Upper(text), 'J', 'I')
  }

  /** The 25-symbol seed list of `create_playfair_matrix`: one pass over the
      prepared key and then over the alphabet, sharing one `used` set. The
      key loop tests membership of the alphabet and the alphabet loop tests
      `!= 'J'`; the prepared key holds no `J`, so both tests are `IsMatrixLetter`. */
  function MatrixSeed(key: string): (s: string)
    ensures Distinct(s)
    ensures forall c :: c in s <==> IsMatrixLetter(c)
    ensures |s| == Size * Size
  {
    var s := KeepFirst(Prepare(key) + Letters, IsMatrixLetter);
    MatrixLettersFacts();
    SameElementsSameLength(s, MatrixLetters);
    s
  }

  /** The seed is the key's letters in first-occurrence order, followed by
      every other letter except `J` in alphabetical order. */
  lemma {:induction false} MatrixSeedOrder(key: string)
    ensures MatrixSeed(key) == KeepFirst(Prepare(key), IsMatrixLetter) + Absent(Letters, Prepare(key), IsMatrixLetter)
  {
    MatrixLettersFacts();
    KeepFirstAppend(Prepare(key), Letters, IsMatrixLetter);
  }

  /** `create_playfair_matrix(key)`: the seed in 5 rows of 5. */
  function CreatePlayfairMatrix(key: string): (m: Grid)
    ensures IsGrid(m, Size, Size) && DistinctGrid(m)
    ensures Flatten(m) == MatrixSeed(key)
  {
    var s := MatrixSeed(key);
    ReshapeDistinct(s, Size, Size);
    assert s[..Size * Size] == s;
    Reshape(s, Size, Size)
  }

  /** A created grid holds exactly the letters other than `J`. */
  lemma {:induction false} CreatedSymbols(key: string, c: char)
    ensures InGrid(CreatePlayfairMatrix(key), c) <==> IsMatrixLetter(c)
  {
    FlattenSymbols(CreatePlayfairMatrix(key), c);
  }

  /** `playfair_encrypt(plain_text, matrix)`; IndexError when a symbol of a
      digraph (a space, a digit, ...) is not in the grid. */
  function PlayfairEncrypt(plainText: string, m: Grid): (r: Result<string>)
    requires IsGrid(m, Size, Size)
    ensures r.Ok? <==> AllInGrid(m, Segment(Prepare(plainText)))
    ensures r.Err? ==> r.error == IndexError
    ensures r.Ok? ==> |r.value| == 2 * |Segment(Prepare(plainText))|
    ensures r.Ok? ==> forall i :: 0 <= i < |r.value| ==> InGrid(m, r.value[i])
  {
    var es := TransformAll(m, Size, Size, FirstMatch, Segment(Prepare(plainText)), Encrypt);
    if es.None? then Err(IndexError)
    else
      ConcatInGrid(m, es.value);
      Ok(Concat(es.value))
  }

  /** `playfair_decrypt(encrypted_text, matrix)`; IndexError when the
      upper-cased ciphertext has odd length or a symbol not in the grid. */
  function PlayfairDecrypt(encryptedText: string, m: Grid): (r: Result<string>)
    requires IsGrid(m, Size, Size)
    ensures r.Ok? <==> |encryptedText| % 2 == 0
                       && forall i :: 0 <= i < |encryptedText| ==> InGrid(m, Upper(encryptedText)[i])
    ensures r.Err? ==> r.error == IndexError
    ensures r.Ok? ==> Filler !in r.value && |r.value| <= |encryptedText|
  {
    var text := Upper(encryptedText);
    match ExactPairs(text)
    case None => Err(IndexError)
    case Some(ds) =>
      ExactPairsInGrid(m, text);
      match TransformAll(m, Size, Size, FirstMatch, ds, Decrypt)
      case None => Err(IndexError)
      case Some(ps) => Ok(Remove(Concat(ps), Filler))
  }

  /** Round trip on any 5 x 5 grid without repeats whose symbols `str.upper`
      keeps and which holds `X` and every symbol of the prepared plaintext:
      decryption gives back the prepared plaintext with every `X` deleted. */
  lemma {:induction false} RoundTrip(m: Grid, plainText: string)
    requires IsGrid(m, Size, Size) && DistinctGrid(m) && InGrid(m, Filler)
    requires forall c :: InGrid(m, c) ==> UpperChar(c) == c
    requires forall i :: 0 <= i < |Prepare(plainText)| ==> InGrid(m, Prepare(plainText)[i])
    ensures PlayfairEncrypt(plainText, m).Ok?
    ensures PlayfairDecrypt(PlayfairEncrypt(plainText, m).value, m) == Ok(Remove(Prepare(plainText), Filler))
  {
    var t := Prepare(plainText);
    var ds := Segment(t);
    SegmentInGrid(t, m);
    AllRoundTrip(m, Size, Size, FirstMatch, ds, Encrypt);
    var es := TransformAll(m, Size, Size, FirstMatch, ds, Encrypt).value;
    var c := Concat(es);
    assert Upper(c) == c by {
      ConcatInGrid(m, es);
    }
    ChunkConcat(es);
    SegmentKeepsText(t);
  }

  /** Round trip on a created grid for a plaintext of ASCII letters. */
  lemma {:induction false} CreatedRoundTrip(key: string, plainText: string)
    requires forall i :: 0 <= i < |plainText| ==> UpperChar(plainText[i]) in Letters
    ensures PlayfairEncrypt(plainText, CreatePlayfairMatrix(key)).Ok?
    ensures var m := CreatePlayfairMatrix(key);
            PlayfairDecrypt(PlayfairEncrypt(plainText, m).value, m) == Ok(Remove(Prepare(plainText), Filler))
  {
    var m := CreatePlayfairMatrix(key);
    CreatedSymbols(key, Filler);
    forall c | InGrid(m, c) ensures UpperChar(c) == c {
      CreatedSymbols(key, c);
      LetterUpper(c);
    }
    var t := Prepare(plainText);
    forall i | 0 <= i < |t| ensures InGrid(m, t[i]) {
      CreatedSymbols(key, t[i]);
      assert UpperChar(plainText[i]) in Letters;
    }
    RoundTrip(m, plainText);
  }
}

=== FILE: results.dfy ===
/** Error outcomes of the cipher scripts. Each constructor is the Python
    exception class the corresponding code path raises. */
module Results {

  /** The exceptions the modelled code can raise. */
  datatype Error = ValueError | KeyError | IndexError

  /** A value, or the exception raised instead of producing it. */
  datatype Result<+T> = Ok(value: T) | Err(error: Error) {

    predicate IsFailure() {
      Err?
    }

    function PropagateFailure<U>(): Result<U>
      requires Err?
    {
      Err(error)
    }

    function Extract(): T
      requires Ok?
    {
      value
    }
  }

  /** A value or nothing; used for lookups that may miss. */
  datatype Option<+T> = None | Some(value: T)
}

=== FILE: seqs.dfy ===
/** Facts about strings (sequences of symbols) shared by the alphabet-matrix builders. */
module Seqs {

  /** No element occurs twice. */
  predicate Distinct(s: string) {
    forall i, j :: 0 <= i < j < |s| ==> s[i] != s[j]
  }

  /** The `n` symbols with consecutive codes starting at `first`, such as `A`-`Z`. */
  function Run(first: char, n: nat): (r: string)
    requires first as int + n <= 0xD800
    ensures |r| == n && Distinct(r)
    ensures forall i :: 0 <= i < n ==> r[i] as int == first as int + i
    ensures forall c :: c in r <==> first <= c && c as int < first as int + n
  {
    var r := seq(n, i requires 0 <= i < n => (first as int + i) as char);
    forall c | first <= c && c as int < first as int + n ensures c in r {
      assert r[c as int - first as int] == c;
    }
    r
  }

  /** Lists without repeats and without common symbols join into a list without repeats. */
  lemma {:induction false} DistinctAppend(a: string, b: string)
    requires Distinct(a) && Distinct(b)
    requires forall x :: x in a ==> x !in b
    ensures Distinct(a + b)
  {
    forall i, j | 0 <= i < j < |a + b| ensures (a + b)[i] != (a + b)[j] {
      if i < |a| && |a| <= j {
        assert (a + b)[i] in a && (a + b)[j] == b[j - |a|];
      }
    }
  }

  /** Position of the first occurrence of `x` in `s` (Python's `s.index(x)`). */
  function IndexOf(s: string, x: char): (k: nat)
    requires x in s
    ensures k < |s| && s[k] == x
    ensures forall j :: 0 <= j < k ==> s[j] != x
  {
    if s[0] == x then 0 else 1 + IndexOf(s[1..], x)
  }

  /** Position of the last occurrence of `x` in `s`. */
  function LastIndexOf(s: string, x: char): (k: nat)
    requires x in s
    ensures k < |s| && s[k] == x
    ensures forall j :: k < j < |s| ==> s[j] != x
  {
    if s[|s| - 1] == x then |s| - 1 else LastIndexOf(s[..|s| - 1], x)
  }

  /** The elements of `s` that satisfy `p` and were not seen earlier in `s`,
      in order of first occurrence: a single left-to-right pass that keeps a
      `used` set and appends an element when it passes `p` and is not used yet. */
  function KeepFirst(s: string, p: char -> bool): (r: string)
    ensures Distinct(r)
    ensures forall x :: x in r <==> x in s && p(x)
    decreases |s|
  {
    if |s| == 0 then []
    else
      var front := s[..|s| - 1];
      var last := s[|s| - 1];
      var d := KeepFirst(front, p);
      if last in front || !p(last) then d else d + [last]
  }

  /** The kept elements are listed in order of their first position in `s`. */
  lemma {:induction false} KeepFirstOrder(s: string, p: char -> bool)
    ensures forall i, j :: 0 <= i < j < |KeepFirst(s, p)| ==>
      IndexOf(s, KeepFirst(s, p)[i]) < IndexOf(s, KeepFirst(s, p)[j])
    decreases |s|
  {
    if |s| > 0 {
      var front := s[..|s| - 1];
      var last := s[|s| - 1];
      KeepFirstOrder(front, p);
      assert s == front + [last];
      if last in front || !p(last) {
        OrderExtend(front, last, KeepFirst(front, p));
      } else {
        OrderAppend(front, last, KeepFirst(front, p));
      }
    }
  }

  /** Appending a symbol to `front` keeps the order of first positions of symbols of `front`. */
  lemma {:induction false} OrderExtend(front: string, last: char, d: string)
    requires forall x :: x in d ==> x in front
    requires forall i, j :: 0 <= i < j < |d| ==> IndexOf(front, d[i]) < IndexOf(front, d[j])
    ensures forall i, j :: 0 <= i < j < |d| ==> IndexOf(front + [last], d[i]) < IndexOf(front + [last], d[j])
  {
    forall i, j | 0 <= i < j < |d|
      ensures IndexOf(front + [last], d[i]) < IndexOf(front + [last], d[j])
    {
      IndexOfPrefix(front, [last], d[i]);
      IndexOfPrefix(front, [last], d[j]);
    }
  }

  /** A new symbol appended to both lists comes after every earlier one. */
  lemma {:induction false} OrderAppend(front: string, last: char, d: string)
    requires last !in front
    requires forall x :: x in d ==> x in front
    requires forall i, j :: 0 <= i < j < |d| ==> IndexOf(front, d[i]) < IndexOf(front, d[j])
    ensures forall i, j :: 0 <= i < j < |d + [last]| ==>
      IndexOf(front + [last], (d + [last])[i]) < IndexOf(front + [last], (d + [last])[j])
  {
    var s := front + [last];
    OrderExtend(front, last, d);
    assert IndexOf(s, last) == |front| by {
      forall j | 0 <= j < |front| ensures s[j] != last {
        assert s[j] == front[j];
      }
    }
    forall i, j | 0 <= i < j < |d + [last]|
      ensures IndexOf(s, (d + [last])[i]) < IndexOf(s, (d + [last])[j])
    {
      assert (d + [last])[i] == d[i];
      IndexOfPrefix(front, [last], d[i]);
      if j < |d| {
        assert (d + [last])[j] == d[j];
      }
    }
  }

  /** Filters that agree on the elements of `s` keep the same elements. */
  lemma {:induction false} KeepFirstSame(s: string, p: char -> bool, q: char -> bool)
    requires forall i :: 0 <= i < |s| ==> p(s[i]) == q(s[i])
    ensures KeepFirst(s, p) == KeepFirst(s, q)
    decreases |s|
  {
    if |s| > 0 {
      KeepFirstSame(s[..|s| - 1], p, q);
    }
  }

  /** The first occurrence of `x` in `a + b` is its first occurrence in `a` when it occurs there. */
  lemma {:induction false} IndexOfPrefix(a: string, b: string, x: char)
    requires x in a
    ensures IndexOf(a + b, x) == IndexOf(a, x)
  {
    var k := IndexOf(a, x);
    assert (a + b)[k] == x;
  }

  /** When `b` has no repeats, one pass over `a + b` keeps the first-kept
      elements of `a` and then the elements of `b` that pass `p` and do not
      occur in `a`, in `b`'s order. */
  lemma {:induction false} KeepFirstAppend(a: string, b: string, p: char -> bool)
    requires Distinct(b)
    ensures KeepFirst(a + b, p) == KeepFirst(a, p) + Absent(b, a, p)
    decreases |b|
  {
    if |b| == 0 {
      assert a + b == a;
    } else {
      var b' := b[..|b| - 1];
      var x := b[|b| - 1];
      assert b == b' + [x];
      assert (a + b)[..|a + b| - 1] == a + b';
      assert (a + b)[|a + b| - 1] == x;
      assert Distinct(b');
      KeepFirstAppend(a, b', p);
      assert x !in b';
      assert x in a + b' <==> x in a;
    }
  }

  /** The elements of `s` that pass `p` and do not occur in `used`, in order. */
  function Absent(s: string, used: string, p: char -> bool): (r: string)
    ensures forall x :: x in r <==> x in s && p(x) && x !in used
    ensures |r| <= |s|
    decreases |s|
  {
    if |s| == 0 then []
    else
      var front := Absent(s[..|s| - 1], used, p);
      var last := s[|s| - 1];
      if last in used || !p(last) then front else front + [last]
  }

  /** A sequence without repeats has as many elements as its set. */
  lemma {:induction false} DistinctCardinality(s: string)
    requires Distinct(s)
    ensures |set x | x in s| == |s|
    decreases |s|
  {
    if |s| > 0 {
      var front := s[..|s| - 1];
      var last := s[|s| - 1];
      assert s == front + [last];
      DistinctCardinality(front);
      assert last !in front;
      assert (set x | x in s) == (set x | x in front) + {last};
    }
  }

  /** Two sequences without repeats over the same set of elements have the same length. */
  lemma {:induction false} SameElementsSameLength(s: string, t: string)
    requires Distinct(s) && Distinct(t)
    requires forall x :: x in s <==> x in t
    ensures |s| == |t|
  {
    DistinctCardinality(s);
    DistinctCardinality(t);
    assert (set x | x in s) == (set x | x in t);
  }
}

=== FILE: text.dfy ===
/** The string operations of Python the Playfair scripts rely on:
    `str.upper`, `str.replace` of a single character and `str.rstrip`. */
module Text {

  /** Python's `str.upper` on one character, for the ASCII range: `a`-`z`
      become `A`-`Z`, every other character is kept. */
  function UpperChar(c: char): (u: char)
    ensures 'a' <= c <= 'z' ==> u as int == c as int - 32
    ensures !('a' <= c <= 'z') ==> u == c
    ensures !('a' <= u <= 'z')
  {
    if 'a' <= c <= 'z' then (c as int - 32) as char else c
  }

  /** `s.upper()`, one character at a time. */
  function Upper(s: string): (r: string)
    ensures |r| == |s|
    ensures forall i :: 0 <= i < |s| ==> r[i] == UpperChar(s[i])
  {
    seq(|s|, i requires 0 <= i < |s| => UpperChar(s[i]))
  }

  /** `s.replace(a, b)` for single characters `a` and `b`. */
  function ReplaceChar(s: string, a: char, b: char): (r: string)
    ensures |r| == |s|
    ensures forall i :: 0 <= i < |s| ==> r[i] == (if s[i] == a then b else s[i])
    ensures a != b ==> a !in r
  {
    seq(|s|, i requires 0 <= i < |s| => if s[i] == a then b else s[i])
  }

  /** `s.replace(x, "")`: every occurrence of `x` deleted, every other
      character kept as often as before; a text without `x` is unchanged. */
  function Remove(s: string, x: char): (r: string)
    ensures x !in r
    ensures forall c :: c != x ==> (c in r <==> c in s)
    ensures forall c :: c != x ==> multiset(r)[c] == multiset(s)[c]
    ensures |r| <= |s|
    ensures x !in s ==> r == s
  {
    if |s| == 0 then []
    else
      assert s == [s[0]] + s[1..];
      (if s[0] == x then [] else [s[0]]) + Remove(s[1..], x)
  }

  /** Deleting `x` distributes over concatenation. */
  lemma {:induction false} RemoveAppend(a: string, b: string, x: char)
    ensures Remove(a + b, x) == Remove(a, x) + Remove(b, x)
    decreases |a|
  {
    if |a| > 0 {
      assert (a + b)[0] == a[0];
      assert (a + b)[1..] == a[1..] + b;
      RemoveAppend(a[1..], b, x);
    } else {
      assert a + b == b;
    }
  }

  /** Texts that agree once `x` is deleted still agree after a common prefix,
      and a leading `x` is deleted without trace. */
  lemma {:induction false} RemovePrefix(p: string, u: string, v: string, x: char)
    requires Remove(u, x) == Remove(v, x)
    ensures Remove(p + u, x) == Remove(p + v, x)
    ensures Remove([x] + u, x) == Remove(v, x)
  {
    RemoveAppend(p, u, x);
    RemoveAppend(p, v, x);
    assert ([x] + u)[1..] == u;
  }

  /** The characters Python's `str.isspace` accepts, which `str.rstrip()` removes. */
  predicate IsSpace(c: char) {
    || '\t' <= c <= '\r'
    || '\U{1c}' <= c <= ' '
    || c == '\U{85}' || c == '\U{a0}' || c == '\U{1680}'
    || '\U{2000}' <= c <= '\U{200a}'
    || c == '\U{2028}' || c == '\U{2029}' || c == '\U{202f}' || c == '\U{205f}' || c == '\U{3000}'
  }

  /** `s.rstrip()`: the longest prefix of `s` that does not end in whitespace. */
  function RStrip(s: string): (r: string)
    ensures r <= s
    ensures |r| > 0 ==> !IsSpace(r[|r| - 1])
    ensures forall i :: |r| <= i < |s| ==> IsSpace(s[i])
  {
    if |s| == 0 || !IsSpace(s[|s| - 1]) then s else RStrip(s[..|s| - 1])
  }

  /** A string with no whitespace character is left unchanged by `rstrip`. */
  lemma {:induction false} RStripNoSpace(s: string)
    requires forall i :: 0 <= i < |s| ==> !IsSpace(s[i])
    ensures RStrip(s) == s
  {
  }
}
